=== FILE: README.md ===
# Temple Trap solver: the search engine in Dafny

`Code.py` solves the Temple Trap puzzle. The board is a 3×3 grid holding
eight tiles and one blank cell. A pawn walks over the tiles on two levels,
the ground floor and the top floor, and stairs on some tiles join the two.
The pawn must leave the board over the West side of the top-left cell.

A move of the puzzle is one of two things:

- **Pawn relocation.** The pawn walks, on the fixed board, to a position on a
  tile with a hole. It costs the number of steps walked.
- **Tile slide.** A tile next to the blank that does not carry the pawn is
  slid into the blank. It costs one.

The solver runs A* over these moves. It ranks states by `f = g + h`, where `h`
is the grid distance from the pawn to the nearest hole tile. It stops at the
first state from which a breadth-first search of pawn-only moves, `exit_path`,
finds a way out.

This project models that search engine and proves its contracts:

- the tile catalog and its rotation;
- the heuristic;
- both move generators;
- the exit search;
- the A* driver with its expansion limit;
- reading back the answer.

The files, in dependency order:

| file | contents |
|---|---|
| `wrappers.dfy` | `Option` |
| `tiles.dfy` | tile identities, sides, floors, the catalog `TILES`, side numbering |
| `grid.dfy` | cells, directions, `INDEX_TO_RC`, neighbours, Manhattan distance, swapping two cells |
| `orientation.dfy` | `rotate_tile`, `rotation_tiles`, `convert_angle_to_rotations` |
| `states.dfy` | `State`, its equality and hash key, its order, `float('inf')` |
| `heuristic.dfy` | `h` |
| `moves.dfy` | the pawn movement rules of both searches, walks, the bookkeeping both searches share |
| `pawnsearch.dfy` | `new_state`, `pawn_reachable` |
| `tileswap.dfy` | `tile_swap_blank` |
| `transitions.dfy` | `combind_state`, moves on configurations |
| `exitroutes.dfy` | what an exit path is, and the invariant of the exit search |
| `exitsearch.dfy` | `exit_path` |
| `astar.dfy` | `astar`, `reconstruct_path`, the total cost |

Some representation choices:

- **The board** is a sequence of nine tile identities in row-major order, so
  `puzzle[r][c]` is `board[3 * r + c]`.
- **Tiles.** The source looks tiles up through the symbol table `sign`. The
  model replaces that with a nine-variant `TileId`; `Blank` stands for both
  `'-'` and `'#'`.
- **The two breadth-first deques** are sequences that only grow, read from a
  `head` index; `popleft` advances `head`. Each deque is kept beside a map
  from every visited position to its entry.
- **The A* heap** is a sequence. A pop takes an entry that no other entry is
  below in `f`.
- **`f`** is `Extended`, either `Fin(n)` or `Inf`. `Inf` stands for the
  `float('inf')` that `h` returns on a board without holes. Python's `<` on
  these values is `Below`.

## Model

| member | source | states |
|---|---|---|
| `Tiles.SideNumberingRoundTrip` | Code.py:26-27 | `number_to_side` undoes `side_to_number` for every side |
| `Tiles.NumberSide` | Code.py:26 | `number_to_side` gives the side that `side_to_number` numbers `n`, for each `n` in 1..4 |
| `Tiles.Update` | Code.py:317-320 | replacing one catalog entry leaves every other entry as it was |
| `Grid.RowColAreDivMod` | Code.py:21 | the row and column of a cell are `i // 3` and `i % 3` |
| `Grid.OppositeIsMod` | Code.py:108 | the direction that points back is `(i + 2) % 4` |
| `Grid.ManhattanRange` | Code.py:69-70 | on the 3×3 board two cells are at most 4 apart, and at distance 0 only from themselves |
| `Grid.NeighbourSpec` | Code.py:100-103 | the neighbour in direction `d` is exactly the in-bounds cell whose row and column differ by the offsets of `movements[d]` |
| `Grid.NeighbourIsAdjacent` | Code.py:100-108 | a neighbour is at distance one, and stepping back the opposite way (`side[(i + 2) % 4]`) returns to the start |
| `Grid.AdjacentHasDirection` | Code.py:140-142 | every cell at distance one from the blank is its neighbour in some direction of `movements` |
| `Grid.NeighbourInjective` | Code.py:140-142 | different directions lead to different neighbours |
| `Grid.Swap` | Code.py:146 | the two cells trade contents, every other cell is kept, and the board stays a permutation of itself |
| `Orientation.RotateTile` | Code.py:306-307 | the result is a side number in 1..4, congruent to `v + moves` modulo 4 |
| `Orientation.RotateTileIdentity` | Code.py:306-307 | turning by 0 or by 4 quarter turns leaves every side number 1..4 unchanged |
| `Orientation.RotateTileCompose` | Code.py:306-307 | turning by `a` and then by `b` is turning by `a + b` |
| `Orientation.RotateTileInverse` | Code.py:306-307 | turning by `-moves` undoes turning by `moves`, so each turn is a bijection on 1..4 |
| `Orientation.RotateSideInjective` | Code.py:317-319 | two sides turned by the same amount coincide only if they were equal |
| `Orientation.RotateSidesMembership` | Code.py:317-319 | a side is in a turned side set exactly when turning it back gives a side of the original set |
| `Orientation.RotateSidesCardinality` | Code.py:317-319 | a turned side set has as many sides as the original |
| `Orientation.RotationTiles` | Code.py:309-321 | every hole flag and the blank's entry are copied; tiles not on the board keep their base entry; a tile placed on the board gets its base entry turned by the quarter turns of its last cell |
| `Orientation.RotationTilesKeepsSideCounts` | Code.py:309-321 | every entry of the rotated catalog has top, ground and stairs sets of the same sizes as the base entry |
| `Orientation.ConvertAngleToRotations` | Code.py:325-327 | the result is in 0..3; for 0, 90, 180 and 270 it is the angle in quarter turns; in general it is the floored angle in quarter turns, modulo a full turn |
| `States.PlusKeepsOrder` | Code.py:43-44 | adding the same cost `g` to two estimates keeps the order `__lt__` compares their `f` values by, in both directions, and a larger `g` ranks a finite estimate strictly later |
| `States.BelowIsStrictWeakOrder` | Code.py:43-44 | the order `__lt__` compares by is irreflexive and transitive, and is a strict weak order |
| `States.SameIgnoresBookkeeping` | Code.py:46-56 | two states are equal exactly when board, pawn cell, pawn floor and blank agree, whatever their `g`, `f`, parent and action |
| `Heuristic.HoleDistanceFromInf` | Code.py:62-72 | over cells `k..8`, the distance is infinite exactly when none of them holds a hole |
| `Heuristic.HoleDistanceFromAttained` | Code.py:62-72 | a finite distance over cells `k..8` is the distance to one of the hole cells among them |
| `Heuristic.HoleDistanceFromLeast` | Code.py:62-72 | a finite distance over cells `k..8` is no more than the distance to any hole cell among them |
| `Heuristic.EstimateIsNearestHole` | Code.py:60-73 | `h` is the minimum grid distance from the pawn to a hole cell; at most 4; 0 exactly when the pawn's cell holds a hole; infinite exactly when no cell does |
| `Heuristic.HoleDistanceFromSameHoles` | Code.py:66 | the distance depends on the catalog only through the hole flags |
| `Heuristic.HoleDistanceIgnoresRotation` | Code.py:66 | `h`'s reading of the unrotated `TILES` gives the same value as reading the rotated catalog the search is given |
| `Moves.FloorsAreLegal` | Code.py:109-124 | the floors listed for one direction are exactly the legal destination floors under the movement rules |
| `Moves.ExitRulesAreStricter` | Code.py:196-206 | every move the exit search allows, the pawn search allows too |
| `Moves.ExpandDirIsStepVia` | Code.py:100-124 | the candidates for one direction are exactly the legal moves that way |
| `Moves.ExpansionsAreSteps` | Code.py:100-129 | the candidates over all four directions are exactly the legal moves |
| `Moves.Candidates` | Code.py:185-212 | a position's candidate list holds exactly the positions one legal move away |
| `Moves.StepIsAdjacent` | Code.py:100-106 | a move reaches an adjacent cell and never the blank |
| `Moves.WalkExtend` | Code.py:125-129 | a legal walk extended by a legal move is a legal walk |
| `Moves.ClosedContainsReachable` | Code.py:94-129 | a position set closed under moves holds every position reachable from a member |
| `Moves.AtMost18` | Code.py:90 | a search visits at most 18 positions: 9 cells on 2 floors |
| `Moves.IndexedAppend` | Code.py:127-129 | marking a new position visited and pushing it keeps the deque and the visited set in step |
| `Moves.LayeredAppend` | Code.py:129 | pushing an entry one move beyond the one being expanded keeps the deque sorted by distance and no entry further than that |
| `Moves.ExpandedUpToNext` | Code.py:94-129 | expanding the next entry of the deque extends the expanded prefix by one: every move from it leads to a visited position at most one move further from the start |
| `Moves.CappedNext` | Code.py:96 | in a deque sorted by distance, every entry lies within one move beyond the next entry `popleft` takes |
| `Moves.ExpandedIsClosed` | Code.py:94-132 | once every entry is expanded, the visited set is closed under moves |
| `Moves.WalkBoundsDistance` | Code.py:89-129 | the breadth-first bound: the end of any legal walk from the start has a deque entry whose distance is at most the walk's number of moves |
| `PawnSearch.NewStateIsPawnMove` | Code.py:78-84 | a state built from a legal walk of `dist + 1` moves to a new hole position is a pawn relocation charged that walk's length |
| `PawnSearch.EmittedArePawnMoves` | Code.py:125-131 | every state emitted is a pawn relocation, and no two are at the same position |
| `PawnSearch.EmittedAreShortest` | Code.py:125-131 | no legal walk to an emitted state's position has fewer moves than the distance it is charged |
| `PawnSearch.InitialInv` | Code.py:87-90 | the search as set up (start alone in the deque at distance 0 and in `visited`, nothing emitted) satisfies the loop invariant with nothing expanded |
| `PawnSearch.RunSearch` | Code.py:94-131 | when the `while queue` loop ends, every deque entry has been expanded: each move out of a queued position leads to a queued position at most one step further from the start |
| `PawnSearch.FinishedSearch` | Code.py:86-132 | a finished search has emitted one state for every reachable hole position other than the start |
| `PawnSearch.PawnReachable` | Code.py:86-132 | each result keeps board and blank; puts the pawn on a hole tile, off the blank, at a new position; charges the length of a shortest legal walk there, at least one move. Results are at distinct positions, and there is one per reachable hole position |
| `TileSwap.SwapWith` | Code.py:145-151 | the blank trades places with the chosen neighbour; the pawn stays; `g` grows by one; `f = g + h`; the parent is the old state |
| `TileSwap.TargetsFrom` | Code.py:140-144 | the cells tried from direction `d` on are exactly the in-bounds neighbours in those directions other than the pawn's cell, each once |
| `TileSwap.EligibleMeansAdjacent` | Code.py:140-144 | the cells the blank may trade with are its neighbours other than the pawn's cell |
| `TileSwap.TileSwapBlank` | Code.py:136-155 | at most four results, each a tile slide; one for each neighbour of the blank except the pawn's cell, with distinct blanks |
| `Transitions.CombindState` | Code.py:160-165 | the pawn relocations come first, then the tile slides, and every element is a move of the puzzle |
| `Transitions.SuccessorIsConfigStep` | Code.py:160-165 | every successor state is a move between the configurations that equality compares |
| `Transitions.CombindStateCovers` | Code.py:160-165 | conversely, every move out of a state's configuration is produced by `combind_state` |
| `Transitions.ConfigStepPreservesWellFormed` | Code.py:145-147 | moves keep a single blank tile on the blank cell and keep the pawn off it |
| `ExitRoutes.RouteMoves` | Code.py:185-212 | each recorded move goes to an adjacent cell, never onto the blank, and none is labelled EXIT |
| `ExitRoutes.ExitPathMoves` | Code.py:169-214 | in an exit path, every step but the last moves to an adjacent cell off the blank, and only the last is labelled EXIT |
| `ExitRoutes.ExitPathEnd` | Code.py:177-181 | the EXIT step is where the last move ended, or at the start if there are no moves |
| `ExitRoutes.ExitPathCanExit` | Code.py:169-214 | an exit path shows that a position letting the pawn out is reachable |
| `ExitRoutes.RouteExtend` | Code.py:208-212 | a route extended by a move to an unvisited position, labelled by the floors it joins, is a route through distinct positions |
| `ExitRoutes.ExitInvPush` | Code.py:208-212 | pushing such an extension keeps the deque's invariant |
| `ExitRoutes.ExitFound` | Code.py:177-181 | the path of a dequeued position that passes the exit test, closed by EXIT, is an exit path |
| `ExitRoutes.NoExitFound` | Code.py:173-214 | when the deque runs out with no position passing the test, no reachable position lets the pawn out |
| `ExitRoutes.FirstExitIsNearest` | Code.py:173-181 | the first dequeued position that passes the exit test is a nearest one: no walk reaches a position that lets the pawn out in fewer moves |
| `ExitSearch.ExpandExitPosition` | Code.py:185-212 | after expanding an entry, every move from its position leads to a visited position |
| `ExitSearch.NoExitInPrefix` | Code.py:173-181 | entries that failed the exit test keep failing it as the deque grows |
| `ExitSearch.ExpandExitHead` | Code.py:174-212 | one iteration keeps the deque sorted and extends the expanded prefix past an entry that failed the exit test |
| `ExitSearch.SearchExits` | Code.py:173-214 | the loop stops at the first dequeued position that passes the exit test, which is the start when the start passes and is a nearest one, or else proves that none can be reached |
| `ExitSearch.ExitPath` | Code.py:169-214 | the result is an exit path with as few moves as any walk to a position that lets the pawn out. It is `None` exactly when no reachable position lets the pawn out. It is the single EXIT step when the start already lets the pawn out |
| `Astar.RankedIsSuccessor` | Code.py:244-247 | setting `f = g + h` on a successor before pushing it keeps it a move of the puzzle |
| `Astar.MinIndex` | Code.py:227 | `heappop` takes an entry that no other entry is below under `__lt__` |
| `Astar.Remove` | Code.py:227 | popping removes exactly that one entry from the heap, as a multiset |
| `Astar.RemoveKeys` | Code.py:227 | after a pop, every configuration on the heap is the popped one or still waits on it |
| `Astar.UnvisitedPushes` | Code.py:244-247 | every successor whose configuration is not closed is pushed, ranked |
| `Astar.PushSuccessors` | Code.py:244-247 | the heap grows by the ranked successors not yet closed, in order |
| `Astar.ClosedHoldsWalk` | Code.py:226-247 | a set of configurations closed under moves holds every configuration reachable from a member |
| `Astar.ChainReaches` | Code.py:264-269 | following parent links back to the root retraces moves of the puzzle |
| `Astar.InvInit` | Code.py:219-224 | the loop invariant holds with the seeded initial state alone on the heap |
| `Astar.SkipKeepsInv` | Code.py:229-230 | `if s in visited: continue` keeps the invariant |
| `Astar.PushedDescend` | Code.py:244-247 | states pushed while expanding a descendant of the root descend from the root |
| `Astar.ExpandedCovered` | Code.py:232-247 | once a state is closed and its successors pushed, every move out of it leads to a closed or waiting configuration |
| `Astar.ExpandKeepsInv` | Code.py:232-247 | expanding a state that cannot exit keeps the invariant |
| `Astar.Expand` | Code.py:232-247 | expanding closes the popped configuration, which cannot let the pawn out, keeps the invariant, and leaves the heap as the old one without the popped entry, followed by the ranked successors `combind_state` returns whose configuration is not closed |
| `Astar.Exhausted` | Code.py:228-254 | when the heap runs dry, no configuration reachable from the start lets the pawn out |
| `Astar.PoppedReachable` | Code.py:226-233 | every configuration the search closes is reachable from the start's configuration |
| `Astar.Pass` | Code.py:226-247 | one pass of the loop pops an entry no entry of the heap is below under `__lt__`. It then skips that entry, stops on it with the nearest exit path `exit_path` finds, or expands it, keeping the invariant |
| `Astar.Run` | Code.py:226-247 | the loop's run is a trace that starts with the seeded root alone on the heap, each state following from the one before by one pass. It ends on a goal that no entry of the heap is below, or with the heap empty or `cap` configurations closed, and every closed configuration is reachable from the start |
| `Astar.AstarBounded` | Code.py:218-254 | the search is the run of a trace from the seeded root in which every pass pops an entry no entry of the heap is below under `__lt__`, so it is best-first. The explored configurations are those the trace's last state has closed, plus a goal. They number at most `cap`, are distinct, the start's first, each reachable from the start, and none but the last lets the pawn out. A goal is an entry of the last heap that no entry is below. It comes with the exit path `exit_path` returns for it, which needs as few moves as any walk to a position the pawn can leave from, and it descends from the start. Running out of budget means `cap` expansions. Otherwise the search fails only when nothing reachable lets the pawn out |
| `Astar.Astar` | Code.py:218-254 | the same with the limit `max_iterations = 100000` |
| `Astar.ReconstructPath` | Code.py:264-269 | the list ends at the given state and starts at a state without parent, each element the parent of the next |
| `Astar.ReconstructChain` | Code.py:264-269 | for a goal the search returns, the list starts at the initial state, each state is a move from the previous one, and `g` grows by at least the number of moves |
| `Astar.ExitCost` | Code.py:283-287 | the counter loop of `show_pawn_exit` ends at the number of elements of the exit path, the EXIT step included |
| `Astar.TotalCost` | Code.py:296-297 | the printed total is the goal's `g` plus the length of the exit path, the `else 0` branch included |
| `Astar.SolutionCost` | Code.py:289-297 | the reconstructed path runs from the start to the goal, and the printed total is at least the start's cost plus one for every move on that path plus one for every element of the exit path, whose last element is the EXIT step |

## Left out

- `input_board`, the `__main__` block and `display_solution`'s printing
  (`show_state`, `show_pawn_exit`, the progress line every 1000 nodes) are
  input and output. `show_pawn_exit` also counts the elements of the exit
  path; `ExitCost` models that count.
- `heapq` tie-breaking. A pop takes some entry of minimal `f`; the model
  takes the first such entry in its sequence. Nothing proved depends on
  which minimal entry is taken.
- `copy.deepcopy` and the list copies are aliasing concerns. They do not
  exist for immutable values.
- Action strings become the data they print: `PawnMove`, `SwapTile`, and the
  `MoveKind` of each exit step.
- `float('inf')` is the `Inf` variant of `Extended`, and only `<` and `+` on
  it are modelled.
- Board with no hole. The code does not stop early on such a board. `h`
  returns infinity, every state is ranked `Inf`, and the search carries on.
  The model does the same: `Estimate` returns `Inf` and the A* driver searches on.
- Telling the failures apart. `astar` returns `(None, None)` both when the
  heap runs dry and when the limit is reached; only the printed message
  differs. `Outcome` keeps the two apart in the way that message does.
- `h` reads the global `TILES` rather than the catalog passed in.
  `Heuristic.Estimate` does the same. `HoleDistanceIgnoresRotation` proves that
  this gives the value the rotated catalog would give.
- `TILES` argument of `tile_swap_blank`. It is never used, so
  `TileSwap.TileSwapBlank` does not take it.
- Climbing without stairs. `exit_path` does not let the pawn climb from a
  ground floor onto a neighbour's top floor through a ground-floor opening;
  `pawn_reachable` does (Code.py:114-115). The model follows each function
  as written (`PawnRules` and `ExitRules`). `ExitRulesAreStricter` states
  the difference.
- Orientation.RotationTiles: requires an orientation entry for every
  board position that holds a tile. With a shorter list, `rotation_tiles`
  raises `IndexError` at `orientation[i]` (Code.py:314); the model does
  not represent that exception.
- Astar.AstarBounded: makes no claim that the first goal found has the
  least `g`. The goal test does not involve holes, so `h` need not be 0 at
  a goal, and the ranking gives no such guarantee.
- `RC_TO_INDEX` and `INDEX_TO_RC` are the same arithmetic as `Grid.Row`,
  `Grid.Col` and `Grid.Neighbour` (`row * 3 + col`).

=== FILE: astar.dfy ===
/**
 * `astar` (Code.py:218-254): best-first search over configurations, ranked
 * by `f = g + h`, with a closed set keyed on the configuration and a safety
 * limit on the number of expansions; a state is a goal when `exit_path`
 * finds a way out from it.
 */
module Astar {
  import opened Wrappers
  import opened Tiles
  import opened States
  import opened Moves
  import opened Transitions
  import opened ExitRoutes
  import opened ExitSearch
  import Heuristic

  /** `max_iterations`. */
  const MaxIterations: nat := 100000

  /** What the search ends with. The source returns the goal state with its
      exit path, or `(None, None)` in both failure cases, which only its
      printed message tells apart. */
  datatype Outcome =
    | Solved(state: State, exitMoves: seq<ExitStep>)
    | BudgetExhausted
    | NoSolution

  /** A state ranked as `astar` ranks every state it pushes: `f = g + h`. */
  function Ranked(s: State): (r: State)
    ensures Key(r) == Key(s) && r.g == s.g && r.parent == s.parent && r.action == s.action
    ensures r.f == Plus(s.g, Heuristic.Estimate(s))
  {
    s.(f := Plus(s.g, Heuristic.Estimate(s)))
  }

  /** The initial state with its ranking key set, the first entry of the
      heap. */
  function Seed(init: State): (r: State)
    ensures Key(r) == Key(init) && r.g == init.g && r.parent == init.parent
    ensures r.f == Plus(r.g, Heuristic.Estimate(r))
  {
    Ranked(init)
  }

  /** Ranking a successor keeps it a successor: `h` looks only at the board
      and the pawn. */
  lemma RankedIsSuccessor(cat: Catalog, a: State, b: State)
    requires Successor(cat, a, b)
    ensures Successor(cat, a, Ranked(b))
  {
    assert Heuristic.Estimate(Ranked(b)) == Heuristic.Estimate(b);
  }

  /** `s` is reached from `root` by following parent links, each link a
      move of the puzzle. */
  ghost predicate Chain(cat: Catalog, root: State, s: State)
    decreases s
  {
    || s == root
    || (&& s.parent.Some?
        && Successor(cat, s.parent.value, s)
        && Chain(cat, root, s.parent.value))
  }

  // ---------------------------------------------------------------------
  // The heap

  /** The position `heappop` takes from: an entry no other entry is below
      (`__lt__`, that is `f`). Which of several equal entries is taken is
      not modelled; this is the first. */
  function MinIndex(heap: seq<State>): (i: nat)
    requires |heap| > 0
    ensures i < |heap|
    ensures forall j :: 0 <= j < |heap| ==> !Less(heap[j], heap[i])
    decreases |heap|
  {
    if |heap| == 1 then 0
    else
      var k := MinIndex(heap[1..]) + 1;
      assert forall j :: 1 <= j < |heap| ==> heap[j] == heap[1..][j - 1];
      if Less(heap[0], heap[k]) then
        MinAtFront(heap, k);
        0
      else k
  }

  lemma MinAtFront(heap: seq<State>, k: nat)
    requires 0 < k < |heap| && Less(heap[0], heap[k])
    requires forall j :: 1 <= j < |heap| ==> !Less(heap[j], heap[k])
    ensures forall j :: 0 <= j < |heap| ==> !Less(heap[j], heap[0])
  {
    forall j | 0 <= j < |heap|
      ensures !Less(heap[j], heap[0])
    {
      BelowIsStrictWeakOrder(heap[j].f, heap[0].f, heap[k].f);
    }
  }

  /** The heap after taking the entry at `i` out. */
  function Remove(heap: seq<State>, i: nat): (r: seq<State>)
    requires i < |heap|
    ensures multiset(r) == multiset(heap) - multiset{heap[i]}
  {
    assert heap == heap[..i] + [heap[i]] + heap[i + 1..];
    heap[..i] + heap[i + 1..]
  }

  /** The configurations waiting on the heap. */
  ghost function Keys(heap: seq<State>): set<Config>
  {
    set x | x in heap :: Key(x)
  }

  lemma RemoveKeys(heap: seq<State>, i: nat)
    requires i < |heap|
    ensures forall x :: x in Remove(heap, i) ==> x in heap
    ensures forall c :: c in Keys(heap) ==> c == Key(heap[i]) || c in Keys(Remove(heap, i))
  {
    var r := Remove(heap, i);
    forall x | x in r
      ensures x in heap
    {
      assert x in multiset(r);
    }
    forall c | c in Keys(heap)
      ensures c == Key(heap[i]) || c in Keys(r)
    {
      var x :| x in heap && Key(x) == c;
      if x != heap[i] {
        assert x in multiset(heap);
        assert x in multiset(r);
      }
    }
  }

  /** The successors the `for` loop pushes: those whose configuration is
      not closed, ranked, in order. */
  function Unvisited(succ: seq<State>, visited: set<Config>): (r: seq<State>)
    ensures forall x :: x in r ==> exists k :: 0 <= k < |succ| && x == Ranked(succ[k]) && Key(succ[k]) !in visited
    decreases |succ|
  {
    if |succ| == 0 then []
    else
      var init := succ[..|succ| - 1];
      var last := succ[|succ| - 1];
      assert forall k :: 0 <= k < |init| ==> init[k] == succ[k];
      Unvisited(init, visited) + (if Key(last) in visited then [] else [Ranked(last)])
  }

  /** Every successor whose configuration is not closed gets pushed. */
  lemma {:induction false} UnvisitedPushes(succ: seq<State>, visited: set<Config>, k: nat)
    requires k < |succ| && Key(succ[k]) !in visited
    ensures Ranked(succ[k]) in Unvisited(succ, visited)
    decreases |succ|
  {
    var init := succ[..|succ| - 1];
    if k < |succ| - 1 {
      assert init[k] == succ[k];
      UnvisitedPushes(init, visited, k);
    }
  }

  /** The `for state_next in combind_state(...)` loop. */
  method PushSuccessors(succ: seq<State>, visited: set<Config>, heap0: seq<State>) returns (heap: seq<State>)
    ensures heap == heap0 + Unvisited(succ, visited)
  {
    heap := heap0;
    var j := 0;
    while j < |succ|
      invariant j <= |succ|
      invariant heap == heap0 + Unvisited(succ[..j], visited)
    {
      assert succ[..j + 1][..j] == succ[..j];
      if Key(succ[j]) !in visited {
        heap := heap + [Ranked(succ[j])];
      }
      j := j + 1;
    }
    assert succ[..j] == succ;
  }

  // ---------------------------------------------------------------------
  // Reachability on configurations

  /** The configuration `c` lets the pawn out: `exit_path` finds a path. */
  ghost predicate Exits(cat: Catalog, c: Config)
  {
    CanExit(Terrain(cat, c.board, c.blank), Pos(c.pawn, c.floor))
  }

  /** A sequence of configuration moves. */
  ghost predicate ConfigWalk(cat: Catalog, w: seq<Config>)
  {
    forall k :: 0 <= k < |w| - 1 ==> ConfigStep(cat, w[k], w[k + 1])
  }

  /** `b` can be reached from `a` by some moves of the puzzle. */
  ghost predicate ConfigReachable(cat: Catalog, a: Config, b: Config)
  {
    exists w :: ConfigWalk(cat, w) && |w| >= 1 && w[0] == a && w[|w| - 1] == b
  }

  /** A set closed under moves holds every configuration reachable from a
      member. */
  lemma {:induction false} ClosedHoldsWalk(cat: Catalog, v: set<Config>, w: seq<Config>)
    requires forall c, b :: c in v && ConfigStep(cat, c, b) ==> b in v
    requires ConfigWalk(cat, w) && |w| >= 1 && w[0] in v
    ensures w[|w| - 1] in v
    decreases |w|
  {
    if |w| > 1 {
      var w' := w[..|w| - 1];
      assert forall k :: 0 <= k < |w'| ==> w'[k] == w[k];
      ClosedHoldsWalk(cat, v, w');
      assert ConfigStep(cat, w[|w| - 2], w[|w| - 1]);
    }
  }

  /** Following parent links back to `root` retraces moves of the puzzle. */
  lemma {:induction false} ChainReaches(cat: Catalog, root: State, s: State)
    requires Chain(cat, root, s)
    ensures ConfigReachable(cat, Key(root), Key(s))
    decreases s
  {
    if s == root {
      assert ConfigWalk(cat, [Key(s)]);
    } else {
      var p := s.parent.value;
      ChainReaches(cat, root, p);
      var w :| ConfigWalk(cat, w) && |w| >= 1 && w[0] == Key(root) && w[|w| - 1] == Key(p);
      SuccessorIsConfigStep(cat, p, s);
      var w' := w + [Key(s)];
      assert forall k :: 0 <= k < |w| ==> w'[k] == w[k];
      assert ConfigWalk(cat, w');
    }
  }

  // ---------------------------------------------------------------------
  // The search

  /** The heap, the closed set, and the configurations in the order they
      were expanded (`nodes_explored` is its length). */
  datatype SearchState = SearchState(heap: seq<State>, visited: set<Config>, explored: seq<Config>)

  /** The invariant of the `while` loop:
      - the closed set is the set of explored configurations, each
        explored once, the root's first;
      - every entry of the heap descends from the root;
      - no closed configuration lets the pawn out;
      - every move out of a closed configuration leads to one that is
        closed or waits on the heap, and so does the root. */
  ghost predicate Inv(cat: Catalog, root: State, st: SearchState)
  {
    && Distinct(st.explored)
    && (forall c :: c in st.visited <==> c in st.explored)
    && (|st.explored| == 0 ==> st.heap == [root])
    && (|st.explored| > 0 ==> st.explored[0] == Key(root))
    && (forall x :: x in st.heap ==> Chain(cat, root, x))
    && (forall c :: c in st.visited ==> !Exits(cat, c))
    && (Key(root) in st.visited || Key(root) in Keys(st.heap))
    && (forall c, b :: c in st.visited && ConfigStep(cat, c, b) ==> b in st.visited || b in Keys(st.heap))
  }

  lemma InvInit(cat: Catalog, root: State)
    ensures Inv(cat, root, SearchState([root], {}, []))
  {
    assert root in [root];
  }

  /** `if s in visited: continue` keeps the invariant. */
  lemma SkipKeepsInv(cat: Catalog, root: State, st: SearchState, i: nat)
    requires Inv(cat, root, st) && i < |st.heap| && Key(st.heap[i]) in st.visited
    ensures Inv(cat, root, st.(heap := Remove(st.heap, i)))
  {
    RemoveKeys(st.heap, i);
  }

  /** The pushed successors of a state descending from the root descend
      from it too. */
  lemma PushedDescend(cat: Catalog, root: State, s: State, succ: seq<State>, visited: set<Config>)
    requires Chain(cat, root, s)
    requires forall k :: 0 <= k < |succ| ==> Successor(cat, s, succ[k])
    ensures forall x :: x in Unvisited(succ, visited) ==> Chain(cat, root, x)
  {
    forall x | x in Unvisited(succ, visited)
      ensures Chain(cat, root, x)
    {
      var k :| 0 <= k < |succ| && x == Ranked(succ[k]) && Key(succ[k]) !in visited;
      RankedIsSuccessor(cat, s, succ[k]);
    }
  }

  /** Once `s` is closed and its successors not yet closed are pushed, every
      move out of `s` leads to a closed or a waiting configuration. */
  lemma ExpandedCovered(cat: Catalog, s: State, succ: seq<State>, split: nat,
                        visited: set<Config>, rest: seq<State>)
    requires split <= |succ|
    requires PawnSearch.PawnResult(cat, s, succ[..split])
    requires succ[split..] == TileSwap.TileSwapBlank(s)
    ensures forall b :: ConfigStep(cat, Key(s), b) ==> b in visited || b in Keys(rest + Unvisited(succ, visited))
  {
    forall b | ConfigStep(cat, Key(s), b)
      ensures b in visited || b in Keys(rest + Unvisited(succ, visited))
    {
      CombindStateCovers(cat, s, succ, split, b);
      var k :| 0 <= k < |succ| && Key(succ[k]) == b;
      if b !in visited {
        UnvisitedPushes(succ, visited, k);
        assert Ranked(succ[k]) in rest + Unvisited(succ, visited);
      }
    }
  }

  /** The closed set grows by `s`, which cannot exit, and its successors
      not yet closed are pushed. */
  lemma ExpandKeepsInv(cat: Catalog, root: State, st0: SearchState, i: nat, pushed: seq<State>, st: SearchState)
    requires Inv(cat, root, st0) && i < |st0.heap|
    requires Key(st0.heap[i]) !in st0.visited && !Exits(cat, Key(st0.heap[i]))
    requires st.visited == st0.visited + {Key(st0.heap[i])}
    requires st.explored == st0.explored + [Key(st0.heap[i])]
    requires st.heap == Remove(st0.heap, i) + pushed
    requires forall x :: x in pushed ==> Chain(cat, root, x)
    requires forall b :: ConfigStep(cat, Key(st0.heap[i]), b) ==> b in st.visited || b in Keys(st.heap)
    ensures Inv(cat, root, st)
  {
    var rest := Remove(st0.heap, i);
    RemoveKeys(st0.heap, i);
    assert forall x :: x in st.heap ==> x in rest || x in pushed;
    assert Keys(rest) <= Keys(st.heap);
    ExploredStaysDistinct(st0.explored, st0.visited, Key(st0.heap[i]));
  }

  lemma ExploredStaysDistinct(explored: seq<Config>, visited: set<Config>, c: Config)
    requires Distinct(explored) && (forall x :: x in visited <==> x in explored) && c !in visited
    ensures Distinct(explored + [c])
    ensures forall x :: x in visited + {c} <==> x in explored + [c]
  {
  }

  /** `s` is an entry `heappop` may take from `heap`: no entry is below it
      under `__lt__`. */
  ghost predicate Minimal(heap: seq<State>, s: State)
  {
    s in heap && forall x :: x in heap ==> !Less(x, s)
  }

  /** The successors `combind_state` returns for `s`: the pawn relocations,
      then the slides of `tile_swap_blank`. */
  ghost predicate Combined(cat: Catalog, s: State, succ: seq<State>, split: nat)
  {
    && split <= |succ|
    && PawnSearch.PawnResult(cat, s, succ[..split])
    && succ[split..] == TileSwap.TileSwapBlank(s)
  }

  /** `if s in visited: continue` for the entry at `i`. */
  ghost predicate SkipStep(a: SearchState, b: SearchState, i: nat)
  {
    i < |a.heap| && Key(a.heap[i]) in a.visited && b == a.(heap := Remove(a.heap, i))
  }

  /** Closing the entry at `i`, which does not let the pawn out, and pushing
      the ranked successors whose configuration is not closed. */
  ghost predicate ExpandStep(cat: Catalog, a: SearchState, b: SearchState, i: nat)
  {
    && i < |a.heap|
    && Key(a.heap[i]) !in a.visited && !Exits(cat, Key(a.heap[i]))
    && b.visited == a.visited + {Key(a.heap[i])}
    && b.explored == a.explored + [Key(a.heap[i])]
    && exists succ, split :: Combined(cat, a.heap[i], succ, split) && b.heap == Remove(a.heap, i) + Unvisited(succ, b.visited)
  }

  /** One pass of the `while` loop that does not end the search: pop an
      entry no entry is below, then skip or expand it. */
  ghost predicate LoopStep(cat: Catalog, a: SearchState, b: SearchState)
  {
    exists i :: 0 <= i < |a.heap| && Minimal(a.heap, a.heap[i]) && (SkipStep(a, b, i) || ExpandStep(cat, a, b, i))
  }

  /** Expand the entry at `i`: close it and push its new successors. */
  method Expand(cat: Catalog, root: State, st0: SearchState, i: nat) returns (st: SearchState)
    requires Inv(cat, root, st0) && i < |st0.heap|
    requires Key(st0.heap[i]) !in st0.visited && !Exits(cat, Key(st0.heap[i]))
    ensures Inv(cat, root, st)
    ensures ExpandStep(cat, st0, st, i)
  {
    var s := st0.heap[i];
    var visited := st0.visited + {Key(s)};
    var succ, split := CombindState(cat, s);
    var heap := PushSuccessors(succ, visited, Remove(st0.heap, i));
    st := SearchState(heap, visited, st0.explored + [Key(s)]);
    assert s in st0.heap;
    PushedDescend(cat, root, s, succ, visited);
    ExpandedCovered(cat, s, succ, split, visited, Remove(st0.heap, i));
    ExpandKeepsInv(cat, root, st0, i, Unvisited(succ, visited), st);
    assert Combined(cat, s, succ, split) && st.heap == Remove(st0.heap, i) + Unvisited(succ, st.visited);
  }

  /** When the heap runs dry, every configuration reachable from the root
      has been closed, and none of them lets the pawn out. */
  lemma Exhausted(cat: Catalog, root: State, st: SearchState)
    requires Inv(cat, root, st) && |st.heap| == 0
    ensures forall c :: ConfigReachable(cat, Key(root), c) ==> !Exits(cat, c)
  {
    forall c | ConfigReachable(cat, Key(root), c)
      ensures !Exits(cat, c)
    {
      var w :| ConfigWalk(cat, w) && |w| >= 1 && w[0] == Key(root) && w[|w| - 1] == c;
      ClosedHoldsWalk(cat, st.visited, w);
    }
  }

  /** The states the `while` loop passes through: it starts with the
      seeded root alone on the heap and nothing closed, and each state
      follows from the one before by one pass of the loop. */
  ghost predicate Trace(cat: Catalog, root: State, trace: seq<SearchState>)
  {
    && |trace| > 0 && trace[0] == SearchState([root], {}, [])
    && forall j :: 0 <= j < |trace| - 1 ==> LoopStep(cat, trace[j], trace[j + 1])
  }

  lemma TraceAppend(cat: Catalog, root: State, trace: seq<SearchState>, b: SearchState)
    requires Trace(cat, root, trace) && LoopStep(cat, trace[|trace| - 1], b)
    ensures Trace(cat, root, trace + [b])
  {
    var t := trace + [b];
    assert forall j :: 0 <= j < |trace| ==> t[j] == trace[j];
  }

  /** The `k`-th closed configuration is that of `popped[k]`, a descendant
      of the root. */
  ghost predicate Descended(cat: Catalog, root: State, explored: seq<Config>, popped: seq<State>)
  {
    && |popped| == |explored|
    && forall k :: 0 <= k < |popped| ==> Key(popped[k]) == explored[k] && Chain(cat, root, popped[k])
  }

  lemma DescendedAppend(cat: Catalog, root: State, explored: seq<Config>, popped: seq<State>, s: State)
    requires Descended(cat, root, explored, popped) && Chain(cat, root, s)
    ensures Descended(cat, root, explored + [Key(s)], popped + [s])
  {
    var e, p := explored + [Key(s)], popped + [s];
    assert forall k :: 0 <= k < |popped| ==> p[k] == popped[k] && e[k] == explored[k];
  }

  /** Every configuration closed by the search is reachable from the root's
      configuration. */
  lemma PoppedReachable(cat: Catalog, root: State, explored: seq<Config>, popped: seq<State>)
    requires Descended(cat, root, explored, popped)
    ensures forall k :: 0 <= k < |explored| ==> ConfigReachable(cat, Key(root), explored[k])
  {
    forall k | 0 <= k < |explored|
      ensures ConfigReachable(cat, Key(root), explored[k])
    {
      ChainReaches(cat, root, popped[k]);
    }
  }

  /** How the loop ends on a goal: the entry at `i` is one `heappop` may
      take, not yet closed, descends from the root, and `moves` is the
      nearest exit path `exit_path` finds for it. */
  ghost predicate Found(cat: Catalog, root: State, st: SearchState, i: nat, moves: seq<ExitStep>)
  {
    && i < |st.heap| && Minimal(st.heap, st.heap[i])
    && Key(st.heap[i]) !in st.visited && Chain(cat, root, st.heap[i])
    && IsExitPath(TerrainOf(cat, st.heap[i]), PosOf(st.heap[i]), moves)
    && NoNearerExit(TerrainOf(cat, st.heap[i]), PosOf(st.heap[i]), |moves| - 1)
  }

  /** One pass of the `while` loop: pop an entry no entry is below; skip
      it when its configuration is closed, stop on it when `exit_path`
      finds a way out, and expand it otherwise. */
  method Pass(cat: Catalog, root: State, st0: SearchState, ghost popped0: seq<State>)
    returns (st: SearchState, goal: Option<(nat, seq<ExitStep>)>, ghost popped: seq<State>)
    requires Inv(cat, root, st0) && |st0.heap| > 0 && Descended(cat, root, st0.explored, popped0)
    ensures goal.Some? ==> st == st0 && Found(cat, root, st0, goal.value.0, goal.value.1)
    ensures goal.None? ==> LoopStep(cat, st0, st) && Inv(cat, root, st) && Descended(cat, root, st.explored, popped)
    ensures goal.None? ==> (st.explored == st0.explored && |st.heap| < |st0.heap|) || |st.explored| == |st0.explored| + 1
  {
    var i := MinIndex(st0.heap);
    var s := st0.heap[i];
    assert Minimal(st0.heap, s);
    popped := popped0;
    goal := None;
    if Key(s) in st0.visited {
      SkipKeepsInv(cat, root, st0, i);
      st := st0.(heap := Remove(st0.heap, i));
      assert SkipStep(st0, st, i);
    } else {
      var moves := ExitPath(cat, s);
      if moves.Some? {
        goal := Some((i, moves.value));
        st := st0;
      } else {
        st := Expand(cat, root, st0, i);
        DescendedAppend(cat, root, st0.explored, popped0, s);
        popped := popped0 + [s];
      }
    }
  }

  /** The `while heap and nodes_explored < max_iterations` loop; `trace`
      records the states it passes through. It stops on a goal, which it
      pops without closing, or with the heap empty or `cap`
      configurations closed. */
  method Run(cat: Catalog, root: State, cap: nat)
    returns (st: SearchState, goal: Option<(nat, seq<ExitStep>)>, ghost trace: seq<SearchState>)
    ensures Trace(cat, root, trace) && trace[|trace| - 1] == st
    ensures Inv(cat, root, st) && |st.explored| <= cap
    ensures forall k :: 0 <= k < |st.explored| ==> ConfigReachable(cat, Key(root), st.explored[k])
    ensures goal.None? ==> |st.heap| == 0 || |st.explored| == cap
    ensures goal.Some? ==> |st.explored| < cap && Found(cat, root, st, goal.value.0, goal.value.1)
  {
    st := SearchState([root], {}, []);
    InvInit(cat, root);
    trace := [st];
    ghost var popped: seq<State> := [];
    goal := None;
    while goal.None? && |st.heap| > 0 && |st.explored| < cap
      invariant Inv(cat, root, st) && |st.explored| <= cap
      invariant Trace(cat, root, trace) && trace[|trace| - 1] == st
      invariant Descended(cat, root, st.explored, popped)
      invariant goal.Some? ==> |st.explored| < cap && Found(cat, root, st, goal.value.0, goal.value.1)
      decreases if goal.None? then 1 else 0, cap - |st.explored|, |st.heap|
    {
      var next, g, p := Pass(cat, root, st, popped);
      if g.None? {
        TraceAppend(cat, root, trace, next);
        trace := trace + [next];
        st, popped := next, p;
      }
      goal := g;
    }
    PoppedReachable(cat, root, st.explored, popped);
  }

  /** `astar(TILES, initial_state)` with at most `cap` expansions. `trace`
      is the run of the `while` loop: each pass pops an entry no entry on
      the heap is below under `__lt__`, then skips or expands it. The
      explored configurations are those its last state has closed, and a
      goal's besides; they are distinct, the root's first, each reachable
      from it, and none but a goal lets the pawn out. A goal is an entry
      of the last heap that no entry is below, comes with the nearest exit
      path `exit_path` finds for it, and descends from the root. The search
      stops early only on a goal or an exhausted heap, and in the latter
      case no reachable configuration lets the pawn out. */
  method AstarBounded(cat: Catalog, init: State, cap: nat)
    returns (result: Outcome, explored: seq<Config>, ghost trace: seq<SearchState>)
    ensures Trace(cat, Seed(init), trace)
    ensures result.Solved? ==>
              && Minimal(trace[|trace| - 1].heap, result.state)
              && Key(result.state) !in trace[|trace| - 1].visited
              && explored == trace[|trace| - 1].explored + [Key(result.state)]
    ensures !result.Solved? ==> explored == trace[|trace| - 1].explored
    ensures |explored| <= cap && Distinct(explored)
    ensures forall k :: 0 <= k < |explored| ==> ConfigReachable(cat, Key(init), explored[k])
    ensures cap > 0 ==> |explored| > 0 && explored[0] == Key(init)
    ensures result.Solved? ==>
              && |explored| > 0 && explored[|explored| - 1] == Key(result.state)
              && Chain(cat, Seed(init), result.state)
              && IsExitPath(TerrainOf(cat, result.state), PosOf(result.state), result.exitMoves)
              && NoNearerExit(TerrainOf(cat, result.state), PosOf(result.state), |result.exitMoves| - 1)
    ensures forall k :: 0 <= k < |explored| && !(result.Solved? && k == |explored| - 1) ==> !Exits(cat, explored[k])
    ensures result.BudgetExhausted? ==> |explored| == cap
    ensures result.NoSolution? ==> |explored| < cap && forall c :: ConfigReachable(cat, Key(init), c) ==> !Exits(cat, c)
  {
    var root := Seed(init);
    var st, goal;
    st, goal, trace := Run(cat, root, cap);
    if goal.Some? {
      var (i, moves) := goal.value;
      var s := st.heap[i];
      ExploredStaysDistinct(st.explored, st.visited, Key(s));
      ChainReaches(cat, root, s);
      explored := st.explored + [Key(s)];
      result := Solved(s, moves);
    } else {
      explored := st.explored;
      if |explored| >= cap {
        result := BudgetExhausted;
      } else {
        Exhausted(cat, root, st);
        result := NoSolution;
      }
    }
  }

  /** `astar(TILES, initial_state)` with its limit of 100000 expansions. */
  method Astar(cat: Catalog, init: State)
    returns (result: Outcome, explored: seq<Config>, ghost trace: seq<SearchState>)
    ensures Trace(cat, Seed(init), trace)
    ensures result.Solved? ==>
              && Minimal(trace[|trace| - 1].heap, result.state)
              && Key(result.state) !in trace[|trace| - 1].visited
              && explored == trace[|trace| - 1].explored + [Key(result.state)]
    ensures !result.Solved? ==> explored == trace[|trace| - 1].explored
    ensures |explored| <= MaxIterations && Distinct(explored)
    ensures forall k :: 0 <= k < |explored| ==> ConfigReachable(cat, Key(init), explored[k])
    ensures |explored| > 0 && explored[0] == Key(init)
    ensures result.Solved? ==>
              && explored[|explored| - 1] == Key(result.state)
              && Chain(cat, Seed(init), result.state)
              && IsExitPath(TerrainOf(cat, result.state), PosOf(result.state), result.exitMoves)
              && NoNearerExit(TerrainOf(cat, result.state), PosOf(result.state), |result.exitMoves| - 1)
    ensures forall k :: 0 <= k < |explored| && !(result.Solved? && k == |explored| - 1) ==> !Exits(cat, explored[k])
    ensures result.BudgetExhausted? ==> |explored| == MaxIterations
    ensures result.NoSolution? ==> forall c :: ConfigReachable(cat, Key(init), c) ==> !Exits(cat, c)
  {
    result, explored, trace := AstarBounded(cat, init, MaxIterations);
  }

  // ---------------------------------------------------------------------
  // Reading the answer

  /** `reconstruct_path`: the states from the root to `s`, following parent
      links. */
  function ReconstructPath(s: State): (r: seq<State>)
    ensures |r| >= 1 && r[|r| - 1] == s && r[0].parent.None?
    ensures forall k :: 0 < k < |r| ==> r[k].parent == Some(r[k - 1])
    decreases s
  {
    match s.parent
    case None => [s]
    case Some(p) => ReconstructPath(p) + [s]
  }

  /** The path of a state descending from a root without parent starts at
      that root, each state is a move from the one before, and each move
      costs at least one, so `g` grows by at least the number of moves. */
  lemma {:induction false} ReconstructChain(cat: Catalog, root: State, s: State)
    requires Chain(cat, root, s) && root.parent.None?
    ensures ReconstructPath(s)[0] == root
    ensures forall k :: 0 < k < |ReconstructPath(s)| ==> Successor(cat, ReconstructPath(s)[k - 1], ReconstructPath(s)[k])
    ensures s.g - root.g >= |ReconstructPath(s)| - 1
    decreases s
  {
    if s != root {
      var p := s.parent.value;
      ReconstructChain(cat, root, p);
      var r := ReconstructPath(p);
      assert ReconstructPath(s) == r + [s];
      assert forall k :: 0 <= k < |r| ==> ReconstructPath(s)[k] == r[k];
      assert s.g >= p.g + 1;
    }
  }

  /** The counter of `show_pawn_exit`: one for every element of the exit
      path, the EXIT step included. */
  method ExitCost(exitPath: seq<ExitStep>) returns (cost: nat)
    ensures cost == |exitPath|
  {
    cost := 0;
    var i := 0;
    while i < |exitPath|
      invariant i <= |exitPath| && cost == i
    {
      cost := cost + 1;
      i := i + 1;
    }
  }

  /** `total_cost`: the cost `g` of the goal plus the exit cost, which is
      0 when there is no exit path. */
  method TotalCost(final: State, exitPath: seq<ExitStep>) returns (total: int)
    ensures total == final.g + |exitPath|
  {
    var exitCost := 0;
    if |exitPath| > 0 {
      exitCost := ExitCost(exitPath);
    }
    total := final.g + exitCost;
  }

  /** The closing statistics of `display_solution` for a solution: the
      reconstructed path, and the printed total, which is at least the
      root's cost plus one for every move of the path plus one for every
      element of the exit path, whose last element is the EXIT step. */
  method SolutionCost(cat: Catalog, root: State, s: State, path: seq<ExitStep>)
    returns (pathToGoal: seq<State>, total: int)
    requires Chain(cat, root, s) && root.parent.None?
    requires IsExitPath(TerrainOf(cat, s), PosOf(s), path)
    ensures |pathToGoal| >= 1 && pathToGoal[0] == root && pathToGoal[|pathToGoal| - 1] == s
    ensures total >= root.g + (|pathToGoal| - 1) + |path|
    ensures |path| >= 1 && path[|path| - 1].kind == Exit
  {
    pathToGoal := ReconstructPath(s);
    ReconstructChain(cat, root, s);
    ExitPathMoves(TerrainOf(cat, s), PosOf(s), path);
    total := TotalCost(s, path);
  }
}

=== FILE: exitroutes.dfy ===
/**
 * The paths `exit_path` (Code.py:167-214) returns: labelled moves under the
 * exit rules through distinct positions, closed by the EXIT step at a
 * position from which the pawn leaves over the West side of cell 0; and the
 * invariant of its breadth-first deque.
 */
module ExitRoutes {
  import opened Tiles
  import opened Grid
  import opened States
  import opened Moves

  /** The label `exit_path` attaches to each step: "move", "stairs up",
      "stairs down" or "EXIT". */
  datatype MoveKind = Move | StairsUp | StairsDown | Exit

  /** One element `(cell, floor, action)` of the returned path. */
  datatype ExitStep = ExitStep(cell: Cell, floor: Floor, kind: MoveKind)

  /** The label of a move by the floors it joins: climbing from a ground
      floor to a top floor takes the stairs up, the converse the stairs
      down, anything else is a plain move. */
  function KindOf(from: Floor, to: Floor): MoveKind
  {
    match (from, to)
    case (Ground, Top) => StairsUp
    case (Top, Ground) => StairsDown
    case _ => Move
  }

  function At(e: ExitStep): Pos
  {
    Pos(e.cell, e.floor)
  }

  /** The positions a list of moves passes through, the start first. */
  function Trail(start: Pos, path: seq<ExitStep>): (r: seq<Pos>)
    ensures |r| == |path| + 1 && r[0] == start
  {
    [start] + seq(|path|, k requires 0 <= k < |path| => At(path[k]))
  }

  predicate Distinct<T(==)>(xs: seq<T>)
  {
    forall j, k :: 0 <= j < k < |xs| ==> xs[j] != xs[k]
  }

  /** `path` is a list of moves, as `exit_path` records them, taking the pawn
      from `start` to `p`: legal moves under the exit rules, each labelled by
      the floors it joins, through pairwise different positions. */
  ghost predicate Route(t: Terrain, start: Pos, path: seq<ExitStep>, p: Pos)
  {
    && WalkFromTo(ExitRules, t, Trail(start, path), start, p)
    && (forall k :: 0 <= k < |path| ==> path[k].kind == KindOf(Trail(start, path)[k].floor, path[k].floor))
    && Distinct(Trail(start, path))
  }

  /** A complete answer: a route to a position from which the pawn can leave
      the board, followed by the EXIT step at that same position. */
  ghost predicate IsExitPath(t: Terrain, start: Pos, path: seq<ExitStep>)
  {
    && |path| >= 1
    && var moves := path[..|path| - 1];
       var p := Trail(start, moves)[|moves|];
       && Route(t, start, moves, p)
       && ExitOk(t, p)
       && path[|path| - 1] == ExitStep(p.cell, p.floor, Exit)
  }

  /** Some position the pawn can walk to under the exit rules lets it out. */
  ghost predicate CanExit(t: Terrain, start: Pos)
  {
    exists q :: Reachable(ExitRules, t, start, q) && ExitOk(t, q)
  }

  /** No walk under the exit rules reaches a position the pawn can leave
      from in fewer than `n` moves. */
  ghost predicate NoNearerExit(t: Terrain, start: Pos, n: nat)
  {
    forall w, p :: WalkFromTo(ExitRules, t, w, start, p) && ExitOk(t, p) ==> |w| - 1 >= n
  }

  /** Every move of a route is to a neighbouring cell and off the blank,
      and none of them is an EXIT step. */
  lemma RouteMoves(t: Terrain, start: Pos, moves: seq<ExitStep>, p: Pos)
    requires Route(t, start, moves, p)
    ensures forall k :: 0 <= k < |moves| ==> moves[k].cell != t.blank && moves[k].kind != Exit
    ensures forall k :: 0 <= k < |moves| ==> Adjacent(Trail(start, moves)[k].cell, moves[k].cell)
  {
    var trail := Trail(start, moves);
    forall k | 0 <= k < |moves|
      ensures moves[k].cell != t.blank && moves[k].kind != Exit
      ensures Adjacent(trail[k].cell, moves[k].cell)
    {
      assert Step(ExitRules, t, trail[k], trail[k + 1]);
      StepIsAdjacent(ExitRules, t, trail[k], trail[k + 1]);
    }
  }

  /** Every move of an exit path is to a neighbouring cell and off the
      blank, and only the last step is the EXIT step. */
  lemma ExitPathMoves(t: Terrain, start: Pos, path: seq<ExitStep>)
    requires IsExitPath(t, start, path)
    ensures forall k :: 0 <= k < |path| - 1 ==> path[k].cell != t.blank && path[k].kind != Exit
    ensures forall k :: 0 <= k < |path| - 1 ==> Adjacent(Trail(start, path[..|path| - 1])[k].cell, path[k].cell)
    ensures path[|path| - 1].kind == Exit
  {
    var moves := path[..|path| - 1];
    RouteMoves(t, start, moves, Trail(start, moves)[|moves|]);
    forall k | 0 <= k < |path| - 1
      ensures path[k].cell != t.blank && path[k].kind != Exit
      ensures Adjacent(Trail(start, moves)[k].cell, path[k].cell)
    {
      assert path[k] == moves[k];
    }
  }

  /** The EXIT step stays where the last move ended, which is the start when
      there are no moves. */
  lemma ExitPathEnd(t: Terrain, start: Pos, path: seq<ExitStep>)
    requires IsExitPath(t, start, path)
    ensures |path| >= 2 ==> At(path[|path| - 1]) == At(path[|path| - 2])
    ensures |path| == 1 ==> At(path[0]) == start
  {
    var moves := path[..|path| - 1];
    if |path| >= 2 {
      assert Trail(start, moves)[|moves|] == At(moves[|moves| - 1]);
    }
  }

  /** An exit path shows that the pawn can get out. */
  lemma ExitPathCanExit(t: Terrain, start: Pos, path: seq<ExitStep>)
    requires IsExitPath(t, start, path)
    ensures CanExit(t, start)
  {
    var moves := path[..|path| - 1];
    assert WalkFromTo(ExitRules, t, Trail(start, moves), start, Trail(start, moves)[|moves|]);
  }

  /** The search's variables: the deque, kept as the sequence of every entry
      ever pushed, and the visited set, with the index of each visited
      position's entry. */
  datatype ExitQueue = ExitQueue(queue: seq<(Pos, seq<ExitStep>)>, visited: set<Pos>, index: map<Pos, nat>)

  /** The invariant of the search: the first entry is the start with the
      empty path, every entry's path is a route to its position, and every
      position on it has been visited. */
  ghost predicate ExitInv(t: Terrain, start: Pos, st: ExitQueue)
  {
    && Indexed(st.queue, st.visited, st.index)
    && |st.queue| > 0 && st.queue[0] == (start, [])
    && (forall i :: 0 <= i < |st.queue| ==> Recorded(t, start, st.queue[i], st.visited))
  }

  /** A deque entry: a route to its position, all of whose positions have
      been visited. */
  ghost predicate Recorded(t: Terrain, start: Pos, e: (Pos, seq<ExitStep>), visited: set<Pos>)
  {
    && Route(t, start, e.1, e.0)
    && (forall x :: x in Trail(start, e.1) ==> x in visited)
  }

  /** An entry's distance from the start: the number of moves recorded. */
  function PathLength(path: seq<ExitStep>): nat
  {
    |path|
  }

  /** The step `exit_path` appends when it moves from `p` to `q`. */
  function MoveTo(p: Pos, q: Pos): ExitStep
  {
    ExitStep(q.cell, q.floor, KindOf(p.floor, q.floor))
  }

  lemma TrailAppend(start: Pos, path: seq<ExitStep>, e: ExitStep)
    ensures Trail(start, path + [e]) == Trail(start, path) + [At(e)]
  {
    assert (path + [e])[..|path|] == path;
  }

  /** A route to `p` extended by a move to an unvisited `q` is a route to
      `q`, all of whose positions are visited once `q` is. */
  lemma RouteExtend(t: Terrain, start: Pos, path: seq<ExitStep>, p: Pos, q: Pos, visited: set<Pos>)
    requires Route(t, start, path, p)
    requires forall x :: x in Trail(start, path) ==> x in visited
    requires Step(ExitRules, t, p, q) && q !in visited
    ensures Route(t, start, path + [MoveTo(p, q)], q)
    ensures forall x :: x in Trail(start, path + [MoveTo(p, q)]) ==> x in visited + {q}
  {
    var path' := path + [MoveTo(p, q)];
    var trail := Trail(start, path);
    TrailAppend(start, path, MoveTo(p, q));
    assert Trail(start, path') == trail + [q];
    WalkExtend(ExitRules, t, trail, start, p, q);
    forall k | 0 <= k < |path'|
      ensures path'[k].kind == KindOf(Trail(start, path')[k].floor, path'[k].floor)
    {
      if k < |path| {
        assert path'[k] == path[k];
        assert Trail(start, path')[k] == trail[k];
      }
    }
    forall j, k | 0 <= j < k < |trail| + 1
      ensures (trail + [q])[j] != (trail + [q])[k]
    {
      if k == |trail| {
        assert trail[j] in trail;
      }
    }
  }

  /** The search after pushing the move from the entry at `i` to `q`. */
  function Pushed(st: ExitQueue, i: nat, q: Pos): ExitQueue
    requires i < |st.queue|
  {
    var (p, path) := st.queue[i];
    ExitQueue(st.queue + [(q, path + [MoveTo(p, q)])], st.visited + {q}, st.index[q := |st.queue|])
  }

  /** Pushing a move to an unvisited position keeps the invariant. */
  lemma ExitInvPush(t: Terrain, start: Pos, st0: ExitQueue, i: nat, q: Pos)
    requires ExitInv(t, start, st0) && i < |st0.queue|
    requires Step(ExitRules, t, st0.queue[i].0, q) && q !in st0.visited
    ensures ExitInv(t, start, Pushed(st0, i, q))
  {
    var (p, path) := st0.queue[i];
    var st := Pushed(st0, i, q);
    RouteExtend(t, start, path, p, q, st0.visited);
    IndexedAppend(st0.queue, st0.visited, st0.index, q, path + [MoveTo(p, q)]);
    forall k | 0 <= k < |st.queue|
      ensures Recorded(t, start, st.queue[k], st.visited)
    {
      if k < |st0.queue| {
        assert st.queue[k] == st0.queue[k];
        assert Recorded(t, start, st0.queue[k], st0.visited);
      }
    }
  }

  /** The answer returned when the entry at `head` passes the exit test. */
  lemma ExitFound(t: Terrain, start: Pos, st: ExitQueue, head: nat)
    requires ExitInv(t, start, st) && head < |st.queue| && ExitOk(t, st.queue[head].0)
    ensures IsExitPath(t, start, st.queue[head].1 + [ExitStep(st.queue[head].0.cell, st.queue[head].0.floor, Exit)])
  {
    var (p, path) := st.queue[head];
    var answer := path + [ExitStep(p.cell, p.floor, Exit)];
    assert answer[..|answer| - 1] == path;
  }

  /** When every entry has been expanded and none passed the exit test, no
      reachable position lets the pawn out. */
  lemma NoExitFound(t: Terrain, start: Pos, st: ExitQueue)
    requires ExitInv(t, start, st)
    requires ExpandedUpTo(ExitRules, t, st.queue, PathLength, st.index, |st.queue|)
    requires forall i :: 0 <= i < |st.queue| ==> !ExitOk(t, st.queue[i].0)
    ensures !CanExit(t, start)
  {
    ExpandedIsClosed(ExitRules, t, st.queue, PathLength, st.visited, st.index);
    forall q | Reachable(ExitRules, t, start, q)
      ensures !ExitOk(t, q)
    {
      assert st.queue[0].0 == start;
      ClosedContainsReachable(ExitRules, t, st.visited, start, q);
      assert st.queue[st.index[q]].0 == q;
    }
  }

  /** The first entry to pass the exit test, with the deque sorted by
      distance and every earlier entry expanded, is a nearest one: no walk
      reaches a position the pawn can leave from in fewer moves. */
  lemma FirstExitIsNearest(t: Terrain, start: Pos, st: ExitQueue, head: nat)
    requires Indexed(st.queue, st.visited, st.index) && |st.queue| > 0 && st.queue[0] == (start, [])
    requires head < |st.queue| && Sorted(st.queue, PathLength)
    requires ExpandedUpTo(ExitRules, t, st.queue, PathLength, st.index, head)
    requires forall i :: 0 <= i < head ==> !ExitOk(t, st.queue[i].0)
    ensures NoNearerExit(t, start, |st.queue[head].1|)
  {
    forall w, p | WalkFromTo(ExitRules, t, w, start, p) && ExitOk(t, p)
      ensures |w| - 1 >= |st.queue[head].1|
    {
      if |w| - 1 < |st.queue[head].1| {
        assert forall i :: head <= i < |st.queue| ==> PathLength(st.queue[head].1) <= PathLength(st.queue[i].1);
        WalkBoundsDistance(ExitRules, t, st.queue, PathLength, st.visited, st.index, head, start, w, p);
        assert false;
      }
    }
  }
}

=== FILE: exitsearch.dfy ===
/**
 * `exit_path` (Code.py:167-214): a breadth-first search, on the fixed board,
 * for a position from which the pawn can leave the board over the West side
 * of cell 0, recording the moves that lead there.
 */
module ExitSearch {
  import opened Wrappers
  import opened Tiles
  import opened States
  import opened Moves
  import opened ExitRoutes

  /** Visit an unvisited candidate `q` of the entry at `i`. */
  method ExitVisit(t: Terrain, start: Pos, i: nat, q: Pos, st0: ExitQueue) returns (st: ExitQueue)
    requires ExitInv(t, start, st0) && i < |st0.queue|
    requires Step(ExitRules, t, st0.queue[i].0, q) && q !in st0.visited
    requires Sorted(st0.queue, PathLength) && Capped(st0.queue, PathLength, |st0.queue[i].1| + 1)
    ensures ExitInv(t, start, st)
    ensures Sorted(st.queue, PathLength) && Capped(st.queue, PathLength, |st0.queue[i].1| + 1)
    ensures st.visited == st0.visited + {q} && st.queue == st0.queue + [(q, st0.queue[i].1 + [MoveTo(st0.queue[i].0, q)])]
  {
    LayeredAppend(st0.queue, PathLength, |st0.queue[i].1| + 1, q, st0.queue[i].1 + [MoveTo(st0.queue[i].0, q)]);
    ExitInvPush(t, start, st0, i, q);
    st := Pushed(st0, i, q);
  }

  /** The `j`-th candidate of the entry at `i`: visit it unless it has been
      visited already. */
  method ExitConsider(t: Terrain, start: Pos, i: nat, nexts: seq<Pos>, j: nat, st0: ExitQueue) returns (st: ExitQueue)
    requires ExitInv(t, start, st0) && i < |st0.queue|
    requires j < |nexts| && Step(ExitRules, t, st0.queue[i].0, nexts[j])
    requires forall k :: 0 <= k < j ==> nexts[k] in st0.visited
    requires Sorted(st0.queue, PathLength) && Capped(st0.queue, PathLength, |st0.queue[i].1| + 1)
    ensures ExitInv(t, start, st)
    ensures Sorted(st.queue, PathLength) && Capped(st.queue, PathLength, |st0.queue[i].1| + 1)
    ensures st0.visited <= st.visited && st0.queue <= st.queue
    ensures forall k :: 0 <= k <= j ==> nexts[k] in st.visited
  {
    var q := nexts[j];
    if q !in st0.visited {
      st := ExitVisit(t, start, i, q, st0);
    } else {
      st := st0;
    }
  }

  /** The `for` loops of `exit_path` for the entry at `i`: every move to an
      unvisited position is recorded and pushed. */
  method ExpandExitPosition(t: Terrain, start: Pos, i: nat, st0: ExitQueue) returns (st: ExitQueue)
    requires ExitInv(t, start, st0) && i < |st0.queue|
    requires Sorted(st0.queue, PathLength) && Capped(st0.queue, PathLength, |st0.queue[i].1| + 1)
    ensures ExitInv(t, start, st)
    ensures Sorted(st.queue, PathLength) && Capped(st.queue, PathLength, |st0.queue[i].1| + 1)
    ensures st0.visited <= st.visited && st0.queue <= st.queue
    ensures forall q :: Step(ExitRules, t, st0.queue[i].0, q) ==> q in st.visited
  {
    st := st0;
    var nexts := Candidates(ExitRules, t, st0.queue[i].0);
    var j := 0;
    while j < |nexts|
      invariant 0 <= j <= |nexts|
      invariant ExitInv(t, start, st)
      invariant Sorted(st.queue, PathLength) && Capped(st.queue, PathLength, |st0.queue[i].1| + 1)
      invariant st0.visited <= st.visited && st0.queue <= st.queue
      invariant forall k :: 0 <= k < j ==> nexts[k] in st.visited
    {
      st := ExitConsider(t, start, i, nexts, j, st);
      j := j + 1;
    }
  }

  /** Entries that failed the exit test keep failing it as the deque grows. */
  lemma NoExitInPrefix(t: Terrain, queue0: seq<(Pos, seq<ExitStep>)>, queue: seq<(Pos, seq<ExitStep>)>, n: nat)
    requires queue0 <= queue && n <= |queue0|
    requires forall i :: 0 <= i < n ==> !ExitOk(t, queue0[i].0)
    ensures forall i :: 0 <= i < n ==> !ExitOk(t, queue[i].0)
  {
    assert forall i :: 0 <= i < n ==> queue[i] == queue0[i];
  }

  /** One iteration of the `while queue` loop past the exit tests. */
  method ExpandExitHead(t: Terrain, start: Pos, head: nat, st0: ExitQueue) returns (st: ExitQueue)
    requires ExitInv(t, start, st0) && head < |st0.queue|
    requires Sorted(st0.queue, PathLength) && Capped(st0.queue, PathLength, |st0.queue[head].1| + 1)
    requires ExpandedUpTo(ExitRules, t, st0.queue, PathLength, st0.index, head)
    requires forall i :: 0 <= i <= head ==> !ExitOk(t, st0.queue[i].0)
    ensures ExitInv(t, start, st) && head < |st.queue|
    ensures Sorted(st.queue, PathLength)
    ensures head + 1 < |st.queue| ==> Capped(st.queue, PathLength, |st.queue[head + 1].1| + 1)
    ensures ExpandedUpTo(ExitRules, t, st.queue, PathLength, st.index, head + 1)
    ensures forall i :: 0 <= i <= head ==> !ExitOk(t, st.queue[i].0)
  {
    st := ExpandExitPosition(t, start, head, st0);
    ExpandedUpToNext(ExitRules, t, PathLength, st0.queue, st0.visited, st0.index, st.queue, st.visited, st.index, head);
    NoExitInPrefix(t, st0.queue, st.queue, head + 1);
    if head + 1 < |st.queue| {
      CappedNext(st.queue, PathLength, head);
    }
  }

  /** The `while queue` loop of `exit_path`: it stops at the first entry
      whose position passes the exit test, or when the deque runs out, in
      which case no reachable position passes it. */
  method SearchExits(t: Terrain, start: Pos) returns (st: ExitQueue, head: nat, found: bool)
    ensures ExitInv(t, start, st)
    ensures found ==> head < |st.queue| && ExitOk(t, st.queue[head].0)
    ensures found ==> NoNearerExit(t, start, |st.queue[head].1|)
    ensures ExitOk(t, start) ==> found && head == 0
    ensures !found ==> !CanExit(t, start)
  {
    st := ExitQueue([(start, [])], {start}, map[start := 0]);
    head := 0;
    while head < |st.queue| && !ExitOk(t, st.queue[head].0)
      invariant head <= |st.queue|
      invariant ExitInv(t, start, st)
      invariant Sorted(st.queue, PathLength)
      invariant head < |st.queue| ==> Capped(st.queue, PathLength, |st.queue[head].1| + 1)
      invariant ExpandedUpTo(ExitRules, t, st.queue, PathLength, st.index, head)
      invariant forall i :: 0 <= i < head ==> !ExitOk(t, st.queue[i].0)
      decreases 18 - head
    {
      st := ExpandExitHead(t, start, head, st);
      head := head + 1;
    }
    found := head < |st.queue|;
    if found {
      FirstExitIsNearest(t, start, st, head);
    } else {
      NoExitFound(t, start, st);
    }
  }

  /** `exit_path(TILES, state)`: the moves to a position from which the pawn
      leaves the board, closed by the EXIT step, or None when there is
      none. When the pawn already stands at such a position the answer is
      the EXIT step alone. */
  method ExitPath(cat: Catalog, s: State) returns (r: Option<seq<ExitStep>>)
    ensures r.Some? ==> IsExitPath(TerrainOf(cat, s), PosOf(s), r.value)
    ensures r.Some? ==> NoNearerExit(TerrainOf(cat, s), PosOf(s), |r.value| - 1)
    ensures r.None? <==> !CanExit(TerrainOf(cat, s), PosOf(s))
    ensures ExitOk(TerrainOf(cat, s), PosOf(s)) ==> r == Some([ExitStep(s.pawn, s.floor, Exit)])
  {
    var t := TerrainOf(cat, s);
    var start := PosOf(s);
    var st, head, found := SearchExits(t, start);
    if found {
      var (p, path) := st.queue[head];
      ExitFound(t, start, st, head);
      r := Some(path + [ExitStep(p.cell, p.floor, Exit)]);
      ExitPathCanExit(t, start, r.value);
    } else {
      r := None;
    }
  }
}

=== FILE: grid.dfy ===
/**
 * The 3x3 board (Code.py:21-24, 41): cells are numbered 0..8 in row-major
 * order, and the four movement directions are indexed in the order of
 * `State.movements`, which is also the order of the side names.
 */
module Grid {
  import opened Wrappers
  import opened Tiles

  type Cell = i: int | 0 <= i < 9

  /** Index into `movements`: 0 = up/North, 1 = right/East, 2 = down/South,
      3 = left/West. */
  type Dir = i: int | 0 <= i < 4

  /** A board lists the tile on each cell, row by row (`puzzle[r][c]` is
      `board[3 * r + c]`). */
  type Board = b: seq<TileId> | |b| == 9
    witness [Blank, Blank, Blank, Blank, Blank, Blank, Blank, Blank, Blank]

  /** `INDEX_TO_RC`, written with comparisons instead of `//` and `%`
      (`RowColAreDivMod` shows they agree). */
  function Row(c: Cell): int
  {
    if c < 3 then 0 else if c < 6 then 1 else 2
  }

  function Col(c: Cell): int
  {
    c - 3 * Row(c)
  }

  /** `INDEX_TO_RC[i]` is `[i // 3, i % 3]`. */
  lemma RowColAreDivMod(c: Cell)
    ensures Row(c) == c / 3 && Col(c) == c % 3
  {
  }

  lemma RowColBounds(i: Cell)
    ensures 0 <= Row(i) < 3 && 0 <= Col(i) < 3
    ensures i == Row(i) * 3 + Col(i)
  {
  }

  /** Row and column offsets of each direction of `movements`, in its
      order: up, right, down, left. */
  function DRow(d: Dir): int
  {
    if d == 0 then -1 else if d == 2 then 1 else 0
  }

  function DCol(d: Dir): int
  {
    if d == 1 then 1 else if d == 3 then -1 else 0
  }

  /** The side a tile is left through when moving in direction `d`:
      `side[i]` for `side = ['I', 'II', 'III', 'IV']`. */
  function SideOf(d: Dir): Side
  {
    if d == 0 then I else if d == 1 then II else if d == 2 then III else IV
  }

  /** The direction pointing back. */
  function Opposite(d: Dir): Dir
  {
    if d < 2 then d + 2 else d - 2
  }

  /** `Opposite` is the source's `(i + 2) % 4`. */
  lemma OppositeIsMod(d: Dir)
    ensures Opposite(d) == (d + 2) % 4
  {
  }

  function Abs(x: int): nat { if x < 0 then -x else x }

  /** Grid distance between two cells. */
  function Manhattan(a: Cell, b: Cell): nat
  {
    Abs(Row(a) - Row(b)) + Abs(Col(a) - Col(b))
  }

  /** On a 3x3 board two cells are at most 4 apart, and at distance 0 only
      from themselves. */
  lemma ManhattanRange()
    ensures forall a: Cell, b: Cell :: Manhattan(a, b) <= 4 && (Manhattan(a, b) == 0 <==> a == b)
  {
    forall a: Cell, b: Cell
      ensures Manhattan(a, b) <= 4 && (Manhattan(a, b) == 0 <==> a == b)
    {
      RowColBounds(a);
      RowColBounds(b);
    }
  }

  predicate Adjacent(a: Cell, b: Cell)
  {
    Manhattan(a, b) == 1
  }

  /** The cell one step from `c` in direction `d`, or None when the new
      row or column falls outside 0..2; cells are numbered row by row, three
      to a row (`RC_TO_INDEX`). */
  function Neighbour(c: Cell, d: Dir): Option<Cell>
  {
    var row := Row(c) + DRow(d);
    var col := Col(c) + DCol(d);
    if 0 <= row < 3 && 0 <= col < 3 then Some(row * 3 + col) else None
  }

  /** The neighbour in direction `d` is exactly the in-bounds cell whose row
      and column differ from those of `c` by the offsets of `d`. */
  lemma NeighbourSpec(c: Cell, d: Dir, n: Cell)
    ensures Neighbour(c, d) == Some(n) <==> (Row(n) == Row(c) + DRow(d) && Col(n) == Col(c) + DCol(d))
  {
    RowColBounds(n);
  }

  /** Every neighbour is at distance one, and stepping back in the opposite
      direction returns to the starting cell. */
  lemma NeighbourIsAdjacent(c: Cell, d: Dir)
    requires Neighbour(c, d).Some?
    ensures Adjacent(c, Neighbour(c, d).value)
    ensures Neighbour(Neighbour(c, d).value, Opposite(d)) == Some(c)
  {
    var n := Neighbour(c, d).value;
    NeighbourSpec(c, d, n);
    NeighbourSpec(n, Opposite(d), c);
  }

  /** Conversely every cell at distance one is the neighbour in some
      direction. */
  lemma AdjacentHasDirection(a: Cell, b: Cell)
    requires Adjacent(a, b)
    ensures exists d: Dir :: Neighbour(a, d) == Some(b)
  {
    var d: Dir;
    if Row(b) == Row(a) - 1 {
      d := 0;
    } else if Col(b) == Col(a) + 1 {
      d := 1;
    } else if Row(b) == Row(a) + 1 {
      d := 2;
    } else {
      d := 3;
    }
    NeighbourSpec(a, d, b);
  }

  /** Distinct directions lead to distinct neighbours. */
  lemma NeighbourInjective(c: Cell, d: Dir, e: Dir)
    requires Neighbour(c, d).Some? && Neighbour(c, d) == Neighbour(c, e)
    ensures d == e
  {
    var n := Neighbour(c, d).value;
    NeighbourSpec(c, d, n);
    NeighbourSpec(c, e, n);
  }

  /** Exchange the contents of two cells (the tuple assignment of
      `tile_swap_blank`). The result is a permutation of the board. */
  function Swap(b: Board, i: Cell, j: Cell): (r: Board)
    ensures r[i] == b[j] && r[j] == b[i]
    ensures forall k :: 0 <= k < 9 && k != i && k != j ==> r[k] == b[k]
    ensures multiset(r) == multiset(b)
  {
    b[i := b[j]][j := b[i]]
  }
}

=== FILE: heuristic.dfy ===
/**
 * The heuristic `h` (Code.py:58-73): grid distance from the pawn to the
 * nearest cell whose tile has a hole, infinite when there is none. The
 * source reads the hole flags from the global base catalog, not from the
 * rotated catalog the search is given; rotation copies the flags, so the
 * two agree (HoleDistanceIgnoresRotation).
 */
module Heuristic {
  import opened Tiles
  import opened Grid
  import opened States
  import opened Orientation

  predicate HoleAt(cat: Catalog, board: Board, c: Cell)
  {
    Lookup(cat, board[c]).hole
  }

  function Min(a: Extended, b: Extended): Extended
  {
    if Below(b, a) then b else a
  }

  /** The least distance from `pawn` to a hole cell among cells `k..8`,
      infinite when there is none. */
  function HoleDistanceFrom(cat: Catalog, board: Board, pawn: Cell, k: nat): (r: Extended)
    requires k <= 9
    decreases 9 - k
  {
    if k == 9 then Inf
    else
      var rest := HoleDistanceFrom(cat, board, pawn, k + 1);
      if HoleAt(cat, board, k) then Min(Fin(Manhattan(pawn, k)), rest) else rest
  }

  /** Over cells `k..8` the distance is infinite exactly when none of them
      holds a hole. */
  lemma {:induction false} HoleDistanceFromInf(cat: Catalog, board: Board, pawn: Cell, k: nat)
    requires k <= 9
    ensures HoleDistanceFrom(cat, board, pawn, k).Inf? <==> forall c: Cell :: k <= c ==> !HoleAt(cat, board, c)
    decreases 9 - k
  {
    if k < 9 {
      HoleDistanceFromInf(cat, board, pawn, k + 1);
      if HoleAt(cat, board, k) {
        assert HoleDistanceFrom(cat, board, pawn, k).Fin?;
      } else {
        assert HoleDistanceFrom(cat, board, pawn, k) == HoleDistanceFrom(cat, board, pawn, k + 1);
      }
    }
  }

  /** A finite distance over cells `k..8` is the distance to one of the hole
      cells among them. */
  lemma {:induction false} HoleDistanceFromAttained(cat: Catalog, board: Board, pawn: Cell, k: nat)
    requires k <= 9
    ensures HoleDistanceFrom(cat, board, pawn, k).Fin? ==>
      exists c: Cell :: k <= c && HoleAt(cat, board, c) && Manhattan(pawn, c) == HoleDistanceFrom(cat, board, pawn, k).n
    decreases 9 - k
  {
    if k < 9 {
      HoleDistanceFromAttained(cat, board, pawn, k + 1);
      var rest := HoleDistanceFrom(cat, board, pawn, k + 1);
      if HoleAt(cat, board, k) && !Below(rest, Fin(Manhattan(pawn, k))) {
        var c: Cell := k;
        assert HoleDistanceFrom(cat, board, pawn, k) == Fin(Manhattan(pawn, c));
      } else if rest.Fin? {
        var c: Cell :| k + 1 <= c && HoleAt(cat, board, c) && Manhattan(pawn, c) == rest.n;
        assert HoleDistanceFrom(cat, board, pawn, k) == rest;
      }
    }
  }

  /** A finite distance over cells `k..8` is no more than the distance to
      any hole cell among them. */
  lemma {:induction false} HoleDistanceFromLeast(cat: Catalog, board: Board, pawn: Cell, k: nat)
    requires k <= 9
    ensures HoleDistanceFrom(cat, board, pawn, k).Fin? ==>
      forall c: Cell :: k <= c && HoleAt(cat, board, c) ==> HoleDistanceFrom(cat, board, pawn, k).n <= Manhattan(pawn, c)
    decreases 9 - k
  {
    if k < 9 {
      HoleDistanceFromLeast(cat, board, pawn, k + 1);
      HoleDistanceFromInf(cat, board, pawn, k + 1);
      var rest := HoleDistanceFrom(cat, board, pawn, k + 1);
      var r := HoleDistanceFrom(cat, board, pawn, k);
      forall c: Cell | k <= c && HoleAt(cat, board, c) && r.Fin?
        ensures r.n <= Manhattan(pawn, c)
      {
        if c == k {
          assert Below(r, Fin(Manhattan(pawn, k))) || r == Fin(Manhattan(pawn, k));
        } else {
          assert k + 1 <= c && rest.Fin?;
          assert r == rest || (r == Fin(Manhattan(pawn, k)) && !Below(rest, r));
        }
      }
    }
  }

  /** Over cells `k..8` the distance is infinite exactly when none of them
      holds a hole, and otherwise it is the distance to one of the hole
      cells and no more than the distance to any of them. */
  lemma HoleDistanceFromIsLeast(cat: Catalog, board: Board, pawn: Cell, k: nat)
    requires k <= 9
    ensures HoleDistanceFrom(cat, board, pawn, k).Inf? <==> forall c: Cell :: k <= c ==> !HoleAt(cat, board, c)
    ensures HoleDistanceFrom(cat, board, pawn, k).Fin? ==>
      exists c: Cell :: k <= c && HoleAt(cat, board, c) && Manhattan(pawn, c) == HoleDistanceFrom(cat, board, pawn, k).n
    ensures HoleDistanceFrom(cat, board, pawn, k).Fin? ==>
      forall c: Cell :: k <= c && HoleAt(cat, board, c) ==> HoleDistanceFrom(cat, board, pawn, k).n <= Manhattan(pawn, c)
  {
    HoleDistanceFromInf(cat, board, pawn, k);
    HoleDistanceFromAttained(cat, board, pawn, k);
    HoleDistanceFromLeast(cat, board, pawn, k);
  }

  function HoleDistance(cat: Catalog, board: Board, pawn: Cell): Extended
  {
    HoleDistanceFrom(cat, board, pawn, 0)
  }

  /** `h(state)`: the grid distance from the pawn to the nearest hole cell,
      read from the base catalog. */
  function Estimate(s: State): (r: Extended)
  {
    HoleDistance(BaseTiles, s.board, s.pawn)
  }

  /** `h` is the minimum over hole cells of the grid distance to the pawn:
      zero exactly when the pawn stands on a hole tile, at most 4 when any
      hole exists, infinite exactly when there is no hole. */
  lemma EstimateIsNearestHole(s: State)
    ensures Estimate(s).Inf? <==> forall c: Cell :: !HoleAt(BaseTiles, s.board, c)
    ensures Estimate(s).Fin? ==> 0 <= Estimate(s).n <= 4
    ensures Estimate(s).Fin? ==> exists c: Cell :: HoleAt(BaseTiles, s.board, c) && Manhattan(s.pawn, c) == Estimate(s).n
    ensures Estimate(s).Fin? ==> forall c: Cell :: HoleAt(BaseTiles, s.board, c) ==> Estimate(s).n <= Manhattan(s.pawn, c)
    ensures Estimate(s) == Fin(0) <==> HoleAt(BaseTiles, s.board, s.pawn)
  {
    ManhattanRange();
    HoleDistanceFromIsLeast(BaseTiles, s.board, s.pawn, 0);
  }

  /** The distance depends on the catalog only through the hole flags. */
  lemma {:induction false} HoleDistanceFromSameHoles(cat1: Catalog, cat2: Catalog, board: Board, pawn: Cell, k: nat)
    requires k <= 9
    requires forall t :: Lookup(cat1, t).hole == Lookup(cat2, t).hole
    ensures HoleDistanceFrom(cat1, board, pawn, k) == HoleDistanceFrom(cat2, board, pawn, k)
    decreases 9 - k
  {
    if k < 9 {
      HoleDistanceFromSameHoles(cat1, cat2, board, pawn, k + 1);
    }
  }

  /** Reading the hole flags from the base catalog instead of the rotated
      one the search works with gives the same heuristic. */
  lemma HoleDistanceIgnoresRotation(orientation: seq<int>, placed: seq<TileId>, s: State)
    requires forall i :: 0 <= i < |placed| && placed[i] != Blank ==> i < |orientation|
    ensures HoleDistance(RotationTiles(BaseTiles, orientation, placed), s.board, s.pawn) == Estimate(s)
  {
    HoleDistanceFromSameHoles(RotationTiles(BaseTiles, orientation, placed), BaseTiles, s.board, s.pawn, 0);
  }
}

=== FILE: moves.dfy ===
/**
 * Pawn movement on a fixed board, shared by the two breadth-first searches
 * of the source: `pawn_reachable` (Code.py:86-132) and `exit_path`
 * (Code.py:169-214). They differ in one rule: only `pawn_reachable` lets
 * the pawn climb from a ground floor straight onto a neighbour's top floor
 * without stairs (Code.py:114-115).
 */
module Moves {
  import opened Wrappers
  import opened Tiles
  import opened Grid
  import opened States

  /** Which search's legality rules apply. */
  datatype Rules = PawnRules | ExitRules

  /** What stays fixed while the pawn walks: the catalog, the board and the
      blank cell. */
  datatype Terrain = Terrain(cat: Catalog, board: Board, blank: Cell)

  function TerrainOf(cat: Catalog, s: State): Terrain
  {
    Terrain(cat, s.board, s.blank)
  }

  function TileAt(t: Terrain, c: Cell): Tile
  {
    Lookup(t.cat, t.board[c])
  }

  /** When the pawn may go from floor `from` of tile `src` to floor `to` of
      the neighbouring tile `dst` lying in direction `d`: `out` is the side
      of `src` it leaves through, `into` the side of `dst` it enters by. */
  predicate Legal(rules: Rules, src: Tile, dst: Tile, from: Floor, to: Floor, d: Dir)
  {
    var out := SideOf(d);
    var into := SideOf(Opposite(d));
    match (from, to)
    case (Ground, Ground) => out in src.ground && into in dst.ground
    case (Ground, Top) =>
      (rules == PawnRules && out in src.ground && into in dst.top) || (out in src.stairs && into in dst.top)
    case (Top, Top) => out in src.top && into in dst.top
    case (Top, Ground) => out in src.top && into in dst.stairs
  }

  /** The list `moves` the source builds for one direction, in its order
      (a floor may appear twice under the pawn rules). */
  function Floors(rules: Rules, src: Tile, dst: Tile, from: Floor, d: Dir): seq<Floor>
  {
    var out := SideOf(d);
    var into := SideOf(Opposite(d));
    match (rules, from)
    case (PawnRules, Ground) =>
      (if out in src.ground then
         (if into in dst.ground then [Ground] else []) + (if into in dst.top then [Top] else [])
       else [])
      + (if out in src.stairs && into in dst.top then [Top] else [])
    case (ExitRules, Ground) =>
      (if out in src.ground && into in dst.ground then [Ground] else [])
      + (if out in src.stairs && into in dst.top then [Top] else [])
    case (_, Top) =>
      (if out in src.top && into in dst.top then [Top] else [])
      + (if out in src.top && into in dst.stairs then [Ground] else [])
  }

  /** The list holds exactly the legal destination floors. */
  lemma FloorsAreLegal(rules: Rules, src: Tile, dst: Tile, from: Floor, to: Floor, d: Dir)
    ensures to in Floors(rules, src, dst, from, d) <==> Legal(rules, src, dst, from, to, d)
  {
  }

  /** Every floor the exit search may step to is one the pawn search may
      step to as well. */
  lemma ExitRulesAreStricter(src: Tile, dst: Tile, from: Floor, to: Floor, d: Dir)
    ensures Legal(ExitRules, src, dst, from, to, d) ==> Legal(PawnRules, src, dst, from, to, d)
  {
  }

  /** One pawn move from `p` to `q` in direction `d`: `q` is the in-bounds
      neighbour of `p` that way, it is not the blank, and the tiles allow it. */
  predicate StepVia(rules: Rules, t: Terrain, p: Pos, q: Pos, d: Dir)
  {
    && Neighbour(p.cell, d) == Some(q.cell)
    && q.cell != t.blank
    && Legal(rules, TileAt(t, p.cell), TileAt(t, q.cell), p.floor, q.floor, d)
  }

  predicate Step(rules: Rules, t: Terrain, p: Pos, q: Pos)
  {
    exists d: Dir :: StepVia(rules, t, p, q, d)
  }

  /** Destinations reached from `p` in direction `d`, in the order the source
      tries them. */
  function ExpandDir(rules: Rules, t: Terrain, p: Pos, d: Dir): seq<Pos>
  {
    match Neighbour(p.cell, d)
    case None => []
    case Some(n) =>
      if n == t.blank then []
      else
        var fs := Floors(rules, TileAt(t, p.cell), TileAt(t, n), p.floor, d);
        seq(|fs|, k requires 0 <= k < |fs| => Pos(n, fs[k]))
  }

  /** All candidate successors of `p`, direction by direction (the two inner
      loops of either search). */
  function Expansions(rules: Rules, t: Terrain, p: Pos): seq<Pos>
  {
    ExpandDir(rules, t, p, 0) + ExpandDir(rules, t, p, 1) + ExpandDir(rules, t, p, 2) + ExpandDir(rules, t, p, 3)
  }

  lemma ExpandDirIsStepVia(rules: Rules, t: Terrain, p: Pos, q: Pos, d: Dir)
    ensures q in ExpandDir(rules, t, p, d) <==> StepVia(rules, t, p, q, d)
  {
    match Neighbour(p.cell, d)
    case None =>
    case Some(n) =>
      if n != t.blank {
        var fs := Floors(rules, TileAt(t, p.cell), TileAt(t, n), p.floor, d);
        FloorsAreLegal(rules, TileAt(t, p.cell), TileAt(t, n), p.floor, q.floor, d);
        if q.cell == n && q.floor in fs {
          var k :| 0 <= k < |fs| && fs[k] == q.floor;
          assert ExpandDir(rules, t, p, d)[k] == q;
        }
      }
  }

  /** The candidates the searches generate are exactly the legal moves. */
  lemma ExpansionsAreSteps(rules: Rules, t: Terrain, p: Pos)
    ensures forall q :: q in Expansions(rules, t, p) <==> Step(rules, t, p, q)
  {
    forall q
      ensures q in Expansions(rules, t, p) <==> Step(rules, t, p, q)
    {
      ExpandDirIsStepVia(rules, t, p, q, 0);
      ExpandDirIsStepVia(rules, t, p, q, 1);
      ExpandDirIsStepVia(rules, t, p, q, 2);
      ExpandDirIsStepVia(rules, t, p, q, 3);
    }
  }

  /** The candidate list of one dequeued position, as the searches compute
      it; callers rely only on its membership. */
  method Candidates(rules: Rules, t: Terrain, p: Pos) returns (nexts: seq<Pos>)
    ensures forall q :: q in nexts <==> Step(rules, t, p, q)
  {
    nexts := Expansions(rules, t, p);
    ExpansionsAreSteps(rules, t, p);
  }

  /** A move never lands on the blank and always reaches an adjacent cell. */
  lemma StepIsAdjacent(rules: Rules, t: Terrain, p: Pos, q: Pos)
    requires Step(rules, t, p, q)
    ensures Adjacent(p.cell, q.cell) && q.cell != t.blank
  {
    var d: Dir :| StepVia(rules, t, p, q, d);
    NeighbourIsAdjacent(p.cell, d);
  }

  /** A sequence of positions each one move from the previous. */
  predicate IsWalk(rules: Rules, t: Terrain, w: seq<Pos>)
  {
    && |w| >= 1
    && forall k {:trigger Step(rules, t, w[k], w[k + 1])} :: 0 <= k < |w| - 1 ==> Step(rules, t, w[k], w[k + 1])
  }

  predicate WalkFromTo(rules: Rules, t: Terrain, w: seq<Pos>, a: Pos, b: Pos)
  {
    IsWalk(rules, t, w) && w[0] == a && w[|w| - 1] == b
  }

  ghost predicate Reachable(rules: Rules, t: Terrain, a: Pos, b: Pos)
  {
    exists w :: WalkFromTo(rules, t, w, a, b)
  }

  lemma WalkExtend(rules: Rules, t: Terrain, w: seq<Pos>, a: Pos, p: Pos, q: Pos)
    requires WalkFromTo(rules, t, w, a, p) && Step(rules, t, p, q)
    ensures WalkFromTo(rules, t, w + [q], a, q)
  {
    var w' := w + [q];
    forall k | 0 <= k < |w'| - 1
      ensures Step(rules, t, w'[k], w'[k + 1])
    {
      if k < |w| - 1 {
        assert w'[k] == w[k] && w'[k + 1] == w[k + 1];
      }
    }
  }

  /** A set of positions that contains `a` and is closed under moves contains
      every position reachable from `a`: the final argument of each search. */
  lemma {:induction false} ClosedContainsReachable(rules: Rules, t: Terrain, closed: set<Pos>, a: Pos, b: Pos)
    requires a in closed
    requires forall p, q :: p in closed && Step(rules, t, p, q) ==> q in closed
    requires Reachable(rules, t, a, b)
    ensures b in closed
  {
    var w :| WalkFromTo(rules, t, w, a, b);
    var k := 0;
    while k < |w| - 1
      invariant 0 <= k < |w|
      invariant w[k] in closed
    {
      assert Step(rules, t, w[k], w[k + 1]);
      k := k + 1;
    }
  }

  /** Every position: nine cells on two floors. */
  function AllPos(): set<Pos>
  {
    FloorPositions(Ground) + FloorPositions(Top)
  }

  function FloorPositions(fl: Floor): set<Pos>
  {
    {Pos(0, fl), Pos(1, fl), Pos(2, fl), Pos(3, fl), Pos(4, fl), Pos(5, fl), Pos(6, fl), Pos(7, fl), Pos(8, fl)}
  }

  lemma InAllPos(p: Pos)
    ensures p in AllPos()
  {
    assert p.cell in {0, 1, 2, 3, 4, 5, 6, 7, 8};
    if p.floor == Ground {
      assert p == Pos(p.cell, Ground);
    } else {
      assert p == Pos(p.cell, Top);
    }
  }

  lemma FloorPositionsCardinality(fl: Floor)
    ensures |FloorPositions(fl)| == 9
  {
  }

  lemma AllPosCardinality()
    ensures |AllPos()| == 18
  {
    FloorPositionsCardinality(Ground);
    FloorPositionsCardinality(Top);
    assert FloorPositions(Ground) * FloorPositions(Top) == {};
  }

  lemma {:induction false} SubsetCardinality<T>(a: set<T>, b: set<T>)
    requires a <= b
    ensures |a| <= |b|
  {
    assert b == a + (b - a);
  }

  /** A search visits at most 18 positions, which bounds both searches. */
  lemma AtMost18(ps: set<Pos>)
    ensures |ps| <= 18
  {
    forall p | p in ps
      ensures p in AllPos()
    {
      InAllPos(p);
    }
    AllPosCardinality();
    SubsetCardinality(ps, AllPos());
  }

  /** The bookkeeping both searches share: the deque, kept as the sequence
      of every entry ever pushed, lists each visited position once, and
      `index` finds a visited position's entry. */
  ghost predicate Indexed<T>(queue: seq<(Pos, T)>, visited: set<Pos>, index: map<Pos, nat>)
  {
    && |queue| == |visited| <= 18
    && index.Keys == visited
    && (forall i :: 0 <= i < |queue| ==> queue[i].0 in index && index[queue[i].0] == i)
    && (forall p :: p in index ==> index[p] < |queue| && queue[index[p]].0 == p)
  }

  /** Marking a new position and pushing it keeps the bookkeeping. */
  lemma IndexedAppend<T>(queue: seq<(Pos, T)>, visited: set<Pos>, index: map<Pos, nat>, q: Pos, x: T)
    requires Indexed(queue, visited, index) && q !in visited
    ensures Indexed(queue + [(q, x)], visited + {q}, index[q := |queue|])
  {
    AtMost18(visited + {q});
    var queue' := queue + [(q, x)];
    assert forall i :: 0 <= i < |queue| ==> queue'[i] == queue[i];
  }

  /** Distances, as `dist` reads them off the entries, never decrease
      along the deque. */
  ghost predicate Sorted<T>(queue: seq<(Pos, T)>, dist: T -> nat)
  {
    forall i, j :: 0 <= i < j < |queue| ==> dist(queue[i].1) <= dist(queue[j].1)
  }

  /** No entry is further from the start than `bound`. */
  ghost predicate Capped<T>(queue: seq<(Pos, T)>, dist: T -> nat, bound: nat)
  {
    forall i :: 0 <= i < |queue| ==> dist(queue[i].1) <= bound
  }

  /** Pushing an entry at the cap keeps the deque sorted and capped. */
  lemma LayeredAppend<T>(queue: seq<(Pos, T)>, dist: T -> nat, bound: nat, q: Pos, x: T)
    requires Sorted(queue, dist) && Capped(queue, dist, bound) && dist(x) == bound
    ensures Sorted(queue + [(q, x)], dist) && Capped(queue + [(q, x)], dist, bound)
  {
    var queue' := queue + [(q, x)];
    assert forall i :: 0 <= i < |queue| ==> queue'[i] == queue[i];
  }

  /** The first `n` entries have been expanded: every move from one of them
      leads to a visited position whose entry is at most one move further
      from the start. */
  ghost predicate ExpandedUpTo<T>(rules: Rules, t: Terrain, queue: seq<(Pos, T)>, dist: T -> nat,
                                  index: map<Pos, nat>, n: nat)
  {
    forall i :: 0 <= i < n && i < |queue| ==>
      forall q :: Step(rules, t, queue[i].0, q) ==>
        q in index && index[q] < |queue| && dist(queue[index[q]].1) <= dist(queue[i].1) + 1
  }

  /** Expanding the entry at `n`, while every entry lies at most one move
      beyond it, extends the expanded prefix by one. */
  lemma ExpandedUpToNext<T>(rules: Rules, t: Terrain, dist: T -> nat, queue0: seq<(Pos, T)>, visited0: set<Pos>,
                            index0: map<Pos, nat>, queue: seq<(Pos, T)>, visited: set<Pos>, index: map<Pos, nat>, n: nat)
    requires Indexed(queue0, visited0, index0) && Indexed(queue, visited, index)
    requires ExpandedUpTo(rules, t, queue0, dist, index0, n) && n < |queue0| && queue0 <= queue
    requires Capped(queue, dist, dist(queue0[n].1) + 1)
    requires forall q :: Step(rules, t, queue0[n].0, q) ==> q in visited
    ensures ExpandedUpTo(rules, t, queue, dist, index, n + 1)
  {
    forall p | p in index0
      ensures p in index && index[p] == index0[p]
    {
      assert queue[index0[p]] == queue0[index0[p]];
    }
    assert forall i :: 0 <= i <= n ==> queue[i] == queue0[i];
  }

  /** In a sorted deque capped one move beyond the entry at `n`, every
      entry is also within one move beyond the entry at `n + 1`. */
  lemma CappedNext<T>(queue: seq<(Pos, T)>, dist: T -> nat, n: nat)
    requires n + 1 < |queue| && Sorted(queue, dist) && Capped(queue, dist, dist(queue[n].1) + 1)
    ensures Capped(queue, dist, dist(queue[n + 1].1) + 1)
  {
    assert dist(queue[n].1) <= dist(queue[n + 1].1);
  }

  /** Once every entry is expanded the visited set is closed under moves. */
  lemma ExpandedIsClosed<T>(rules: Rules, t: Terrain, queue: seq<(Pos, T)>, dist: T -> nat,
                            visited: set<Pos>, index: map<Pos, nat>)
    requires Indexed(queue, visited, index)
    requires ExpandedUpTo(rules, t, queue, dist, index, |queue|)
    ensures forall p, q :: p in visited && Step(rules, t, p, q) ==> q in visited
  {
    forall p, q | p in visited && Step(rules, t, p, q)
      ensures q in visited
    {
      assert queue[index[p]].0 == p;
    }
  }

  /** The breadth-first bound: when the first entry is the start at distance
      0, the first `n` entries are expanded and every later one is at least
      as far as the walk `w` is long, the end of `w` has an entry no further
      than `w`'s number of moves. */
  lemma WalkBoundsDistance<T>(rules: Rules, t: Terrain, queue: seq<(Pos, T)>, dist: T -> nat, visited: set<Pos>,
                              index: map<Pos, nat>, n: nat, start: Pos, w: seq<Pos>, x: Pos)
    requires Indexed(queue, visited, index) && |queue| > 0 && queue[0].0 == start && dist(queue[0].1) == 0
    requires ExpandedUpTo(rules, t, queue, dist, index, n)
    requires WalkFromTo(rules, t, w, start, x)
    requires forall i :: n <= i < |queue| ==> |w| - 1 <= dist(queue[i].1)
    ensures x in index && index[x] < |queue| && dist(queue[index[x]].1) <= |w| - 1
  {
    var k := 0;
    while k < |w| - 1
      invariant 0 <= k < |w|
      invariant w[k] in index && index[w[k]] < |queue| && dist(queue[index[w[k]]].1) <= k
    {
      assert Step(rules, t, w[k], w[k + 1]);
      assert queue[index[w[k]]].0 == w[k];
      k := k + 1;
    }
  }

  /** The exit test of `exit_path`: the pawn is on cell 0 and can leave over
      the West side, from the top floor through the tile's top sides or from
      the ground floor by its stairs. */
  predicate ExitOk(t: Terrain, p: Pos)
  {
    && p.cell == 0
    && match p.floor
       case Top => IV in TileAt(t, 0).top
       case Ground => IV in TileAt(t, 0).stairs
  }
}

=== FILE: orientation.dfy ===
/**
 * Orientation of the tile catalog (Code.py:304-327): before the search
 * starts, every tile placed on the board has its side sets turned clockwise
 * by the number of quarter turns chosen for its cell.
 */
module Orientation {
  import opened Tiles

  /** `rotate_tile`: side number `v` turned by `moves` quarter turns, the
      result again numbered 1..4. Python's `%` and Dafny's agree here because
      the divisor is positive. */
  function RotateTile(v: int, moves: int): (r: int)
    ensures 1 <= r <= 4
    ensures (r - v - moves) % 4 == 0
  {
    (v + moves - 1) % 4 + 1
  }

  /** Turning by zero or by a full turn changes no side number. */
  lemma RotateTileIdentity(v: int)
    requires 1 <= v <= 4
    ensures RotateTile(v, 0) == v
    ensures RotateTile(v, 4) == v
  {
  }

  /** Successive turns add up modulo a full turn. */
  lemma RotateTileCompose(v: int, a: int, b: int)
    ensures RotateTile(RotateTile(v, a), b) == RotateTile(v, a + b)
  {
    var x := v + a - 1;
    assert RotateTile(RotateTile(v, a), b) == (x % 4 + b) % 4 + 1;
    assert x == 4 * (x / 4) + x % 4;
  }

  /** Turning back by the same amount undoes a turn, so each turn is a
      bijection on the side numbers 1..4. */
  lemma RotateTileInverse(v: int, moves: int)
    requires 1 <= v <= 4
    ensures RotateTile(RotateTile(v, moves), -moves) == v
  {
    RotateTileCompose(v, moves, -moves);
  }

  /** A side turned by `moves` quarter turns, through the number tables. */
  function RotateSide(s: Side, moves: int): Side
  {
    NumberSide(RotateTile(SideNumber(s), moves))
  }

  lemma RotateSideInverse(s: Side, moves: int)
    ensures RotateSide(RotateSide(s, moves), -moves) == s
  {
    RotateTileInverse(SideNumber(s), moves);
    SideNumberingRoundTrip(s);
  }

  lemma RotateSideInjective(s: Side, t: Side, moves: int)
    requires RotateSide(s, moves) == RotateSide(t, moves)
    ensures s == t
  {
    RotateSideInverse(s, moves);
    RotateSideInverse(t, moves);
  }

  /** The set comprehension of `rotation_tiles` over one side set. */
  function RotateSides(sides: set<Side>, moves: int): set<Side>
  {
    set s | s in sides :: RotateSide(s, moves)
  }

  /** A side is in the turned set exactly when turning it back gives a side
      of the original set. */
  lemma RotateSidesMembership(sides: set<Side>, moves: int, x: Side)
    ensures x in RotateSides(sides, moves) <==> RotateSide(x, -moves) in sides
  {
    if x in RotateSides(sides, moves) {
      var s :| s in sides && RotateSide(s, moves) == x;
      RotateSideInverse(s, moves);
    } else if RotateSide(x, -moves) in sides {
      RotateSideInverse(x, -moves);
    }
  }

  /** Turning a set of sides keeps its size, since turning is injective. */
  lemma {:induction false} RotateSidesCardinality(sides: set<Side>, moves: int)
    ensures |RotateSides(sides, moves)| == |sides|
    decreases sides
  {
    if sides != {} {
      var s :| s in sides;
      var rest := sides - {s};
      RotateSidesCardinality(rest, moves);
      assert RotateSides(sides, moves) == RotateSides(rest, moves) + {RotateSide(s, moves)};
      if RotateSide(s, moves) in RotateSides(rest, moves) {
        var t :| t in rest && RotateSide(t, moves) == RotateSide(s, moves);
        RotateSideInjective(t, s, moves);
      }
    }
  }

  /** A tile with its three side sets turned and its hole flag copied. */
  function RotateTileSides(t: Tile, moves: int): Tile
  {
    Tile(RotateSides(t.top, moves), RotateSides(t.ground, moves), t.hole, RotateSides(t.stairs, moves))
  }

  /** `rotation_tiles`: for every board position holding a tile, that tile's
      catalog entry is replaced by the base entry turned by the position's
      quarter-turn count; blank positions are skipped. Positions are handled
      in order, so a tile placed twice keeps the turn of its last position. */
  function RotationTiles(base: Catalog, orientation: seq<int>, board: seq<TileId>): (r: Catalog)
    requires forall i :: 0 <= i < |board| && board[i] != Blank ==> i < |orientation|
    ensures forall t :: Lookup(r, t).hole == Lookup(base, t).hole
    ensures Lookup(r, Blank) == Lookup(base, Blank)
    ensures forall t :: t !in board ==> Lookup(r, t) == Lookup(base, t)
    ensures forall i :: 0 <= i < |board| && board[i] != Blank && board[i] !in board[i + 1..] ==>
      Lookup(r, board[i]) == RotateTileSides(Lookup(base, board[i]), orientation[i])
    decreases |board|
  {
    if |board| == 0 then base
    else
      var n := |board| - 1;
      var earlier := RotationTiles(base, orientation, board[..n]);
      if board[n] == Blank then earlier
      else Update(earlier, board[n], RotateTileSides(Lookup(base, board[n]), orientation[n]))
  }

  /** Every catalog entry produced by `rotation_tiles` has top, ground and
      stairs sets of the same sizes as the base entry. */
  lemma {:induction false} RotationTilesKeepsSideCounts(base: Catalog, orientation: seq<int>, board: seq<TileId>, t: TileId)
    requires forall i :: 0 <= i < |board| && board[i] != Blank ==> i < |orientation|
    ensures |Lookup(RotationTiles(base, orientation, board), t).top| == |Lookup(base, t).top|
    ensures |Lookup(RotationTiles(base, orientation, board), t).ground| == |Lookup(base, t).ground|
    ensures |Lookup(RotationTiles(base, orientation, board), t).stairs| == |Lookup(base, t).stairs|
    decreases |board|
  {
    if |board| > 0 {
      var n := |board| - 1;
      RotationTilesKeepsSideCounts(base, orientation, board[..n], t);
      if board[n] != Blank && board[n] == t {
        var m := orientation[n];
        RotateSidesCardinality(Lookup(base, t).top, m);
        RotateSidesCardinality(Lookup(base, t).ground, m);
        RotateSidesCardinality(Lookup(base, t).stairs, m);
      }
    }
  }

  /** `convert_angle_to_rotations`: clockwise angle to quarter turns in 0..3.
      Python's floor division and Dafny's division agree for the positive
      divisor 90. */
  function ConvertAngleToRotations(angle: int): (r: int)
    ensures 0 <= r < 4
    ensures angle in {0, 90, 180, 270} ==> r * 90 == angle
    ensures (r * 90 - (angle - angle % 90)) % 360 == 0
  {
    (angle / 90) % 4
  }
}

=== FILE: pawnsearch.dfy ===
/**
 * `new_state` and `pawn_reachable` (Code.py:76-132): a breadth-first search
 * over (cell, floor) positions on the fixed board that emits one successor
 * state for every position it newly reaches on a hole tile.
 */
module PawnSearch {
  import opened Wrappers
  import opened Tiles
  import opened States
  import opened Moves

  /** `new_state(state, row, col, floor, cost)`: the pawn moved to `q`, board
      and blank kept, charged `cost + 1`, linked to its parent; `f` stays 0
      until the driver ranks it. */
  function NewState(s: State, q: Pos, cost: int): (r: State)
    ensures Key(r) == Config(s.board, q.cell, q.floor, s.blank)
    ensures r.g - s.g == cost + 1 && r.f == Fin(0) && r.parent == Some(s)
  {
    State(s.board, q.cell, q.floor, s.blank, s.g + cost + 1, Fin(0), Some(s), PawnMove(s.pawn, q.cell, q.floor))
  }

  /** `b` is a pawn relocation of `a`: same board and blank, the pawn on a
      different position that lies on a hole tile and is not the blank, and
      the cost charged is the length of a legal walk there. */
  ghost predicate PawnMoveOf(cat: Catalog, a: State, b: State)
  {
    && b.board == a.board
    && b.blank == a.blank
    && b.parent == Some(a)
    && b.action == PawnMove(a.pawn, b.pawn, b.floor)
    && PosOf(b) != PosOf(a)
    && b.pawn != a.blank
    && Lookup(cat, a.board[b.pawn]).hole
    && b.g >= a.g + 1
    && exists w :: WalkFromTo(PawnRules, TerrainOf(cat, a), w, PosOf(a), PosOf(b)) && |w| == b.g - a.g + 1
  }

  /** No legal walk from `a`'s pawn position to `b`'s takes fewer moves
      than `b` is charged beyond `a`: the charge is the breadth-first
      distance. */
  ghost predicate NoShorterWalk(cat: Catalog, a: State, b: State)
  {
    forall w :: WalkFromTo(PawnRules, TerrainOf(cat, a), w, PosOf(a), PosOf(b)) ==> |w| - 1 >= b.g - a.g
  }

  /** What `pawn_reachable` returns: pawn relocations of `s` not yet ranked,
      at pairwise different positions, and one for every hole position other
      than the start that the pawn can walk to. */
  ghost predicate PawnResult(cat: Catalog, s: State, succ: seq<State>)
  {
    && (forall k :: 0 <= k < |succ| ==> PawnMoveOf(cat, s, succ[k]) && succ[k].f == Fin(0))
    && (forall j, k :: 0 <= j < k < |succ| ==> PosOf(succ[j]) != PosOf(succ[k]))
    && (forall q :: Reachable(PawnRules, TerrainOf(cat, s), PosOf(s), q) && q != PosOf(s) && Lookup(cat, s.board[q.cell]).hole
          ==> exists k :: 0 <= k < |succ| && PosOf(succ[k]) == q)
  }

  /** An entry's distance from the start, for the shared breadth-first
      lemmas. */
  function Distance(d: nat): nat
  {
    d
  }

  /** The pawn search's bookkeeping: besides the shared invariant, the
      first entry is the start at distance 0 and `walks[i]` is a legal walk of
      `queue[i].1` moves from the start to `queue[i].0`. */
  ghost predicate Frontier(t: Terrain, start: Pos, queue: seq<(Pos, nat)>, walks: seq<seq<Pos>>,
                           visited: set<Pos>, index: map<Pos, nat>)
  {
    && Indexed(queue, visited, index)
    && |walks| == |queue|
    && |queue| > 0 && queue[0] == (start, 0)
    && (forall i :: 0 <= i < |queue| ==>
          WalkFromTo(PawnRules, t, walks[i], start, queue[i].0) && |walks[i]| == queue[i].1 + 1)
  }

  /** A queue entry other than the start whose position lies on a hole tile. */
  ghost predicate Emits(cat: Catalog, s: State, queue: seq<(Pos, nat)>, i: int)
  {
    0 < i < |queue| && Lookup(cat, s.board[queue[i].0.cell]).hole
  }

  /** The successors emitted so far: `succ[k]` is `new_state` for the queue
      entry `from[k]`, charged its distance; the entries are increasing, and
      every entry that should emit has done so (`at` says where). */
  ghost predicate Emitted(cat: Catalog, s: State, queue: seq<(Pos, nat)>, succ: seq<State>,
                          from: seq<nat>, at: seq<nat>)
  {
    && |from| == |succ| && |at| == |queue|
    && (forall k :: 0 <= k < |succ| ==>
          && Emits(cat, s, queue, from[k])
          && succ[k] == NewState(s, queue[from[k]].0, queue[from[k]].1 as int - 1))
    && (forall j, k :: 0 <= j < k < |succ| ==> from[j] < from[k])
    && (forall i :: Emits(cat, s, queue, i) ==> at[i] < |succ| && from[at[i]] == i)
  }

  lemma FrontierVisit(t: Terrain, start: Pos, queue: seq<(Pos, nat)>, walks: seq<seq<Pos>>, visited: set<Pos>,
                      index: map<Pos, nat>, walk: seq<Pos>, p: Pos, dist: nat, q: Pos)
    requires Frontier(t, start, queue, walks, visited, index)
    requires WalkFromTo(PawnRules, t, walk, start, p) && |walk| == dist + 1
    requires Step(PawnRules, t, p, q) && q !in visited
    ensures Frontier(t, start, queue + [(q, dist + 1)], walks + [walk + [q]], visited + {q}, index[q := |queue|])
  {
    WalkExtend(PawnRules, t, walk, start, p, q);
    IndexedAppend(queue, visited, index, q, dist + 1);
    var queue' := queue + [(q, dist + 1)];
    assert forall i :: 0 <= i < |queue| ==> queue'[i] == queue[i];
  }

  lemma NewStateIsPawnMove(cat: Catalog, s: State, walk: seq<Pos>, dist: nat, q: Pos)
    requires WalkFromTo(PawnRules, TerrainOf(cat, s), walk, PosOf(s), q) && |walk| == dist + 2
    requires q != PosOf(s) && Lookup(cat, s.board[q.cell]).hole
    ensures PawnMoveOf(cat, s, NewState(s, q, dist))
  {
    var k := |walk| - 2;
    assert Step(PawnRules, TerrainOf(cat, s), walk[k], walk[k + 1]);
    StepIsAdjacent(PawnRules, TerrainOf(cat, s), walk[k], walk[k + 1]);
  }

  lemma EmittedVisit(cat: Catalog, s: State, queue: seq<(Pos, nat)>, succ: seq<State>, from: seq<nat>,
                     at: seq<nat>, q: Pos, dist: nat)
    requires Emitted(cat, s, queue, succ, from, at) && |queue| > 0
    ensures Lookup(cat, s.board[q.cell]).hole ==>
      Emitted(cat, s, queue + [(q, dist + 1)], succ + [NewState(s, q, dist)], from + [|queue|], at + [|succ|])
    ensures !Lookup(cat, s.board[q.cell]).hole ==>
      Emitted(cat, s, queue + [(q, dist + 1)], succ, from, at + [0])
  {
    var queue' := queue + [(q, dist + 1)];
    assert forall i :: 0 <= i < |queue| ==> queue'[i] == queue[i];
    assert forall i :: 0 <= i < |queue| ==> Emits(cat, s, queue', i) == Emits(cat, s, queue, i);
  }

  /** Once the search is over, each emitted state is a pawn relocation:
      the recorded walk to its position has as many moves as it is charged,
      and no two are at the same position. */
  lemma EmittedArePawnMoves(cat: Catalog, s: State, queue: seq<(Pos, nat)>, walks: seq<seq<Pos>>,
                            visited: set<Pos>, index: map<Pos, nat>, succ: seq<State>, from: seq<nat>, at: seq<nat>)
    requires Frontier(TerrainOf(cat, s), PosOf(s), queue, walks, visited, index)
    requires Emitted(cat, s, queue, succ, from, at)
    ensures forall k :: 0 <= k < |succ| ==> PawnMoveOf(cat, s, succ[k]) && succ[k].f == Fin(0)
    ensures forall j, k :: 0 <= j < k < |succ| ==> PosOf(succ[j]) != PosOf(succ[k])
  {
    forall k | 0 <= k < |succ|
      ensures PawnMoveOf(cat, s, succ[k]) && succ[k].f == Fin(0)
    {
      var i := from[k];
      var q := queue[i].0;
      assert Emits(cat, s, queue, i);
      assert q != PosOf(s) by {
        assert index[queue[0].0] == 0;
      }
      NewStateIsPawnMove(cat, s, walks[i], queue[i].1 - 1, q);
    }
    forall j, k | 0 <= j < k < |succ|
      ensures PosOf(succ[j]) != PosOf(succ[k])
    {
      assert from[j] < from[k];
      assert index[queue[from[j]].0] == from[j] && index[queue[from[k]].0] == from[k];
    }
  }

  /** Once the search is over, no walk to an emitted state's position is
      shorter than the distance it is charged. */
  lemma EmittedAreShortest(cat: Catalog, s: State, queue: seq<(Pos, nat)>, visited: set<Pos>,
                           index: map<Pos, nat>, succ: seq<State>, from: seq<nat>, at: seq<nat>)
    requires Indexed(queue, visited, index) && |queue| > 0 && queue[0] == (PosOf(s), 0)
    requires ExpandedUpTo(PawnRules, TerrainOf(cat, s), queue, Distance, index, |queue|)
    requires Emitted(cat, s, queue, succ, from, at)
    ensures forall k :: 0 <= k < |succ| ==> NoShorterWalk(cat, s, succ[k])
  {
    forall k, w | 0 <= k < |succ| && WalkFromTo(PawnRules, TerrainOf(cat, s), w, PosOf(s), PosOf(succ[k]))
      ensures |w| - 1 >= succ[k].g - s.g
    {
      var i := from[k];
      assert Emits(cat, s, queue, i);
      assert index[queue[i].0] == i;
      WalkBoundsDistance(PawnRules, TerrainOf(cat, s), queue, Distance, visited, index, |queue|, PosOf(s), w, queue[i].0);
    }
  }

  /** The search's variables: the deque (as the sequence of every entry
      ever pushed), the visited set and the successors emitted, with the
      bookkeeping the proofs use. */
  datatype Search = Search(queue: seq<(Pos, nat)>, visited: set<Pos>, succ: seq<State>,
                           walks: seq<seq<Pos>>, index: map<Pos, nat>, from: seq<nat>, at: seq<nat>)

  ghost predicate Inv(cat: Catalog, s: State, st: Search)
  {
    && Frontier(TerrainOf(cat, s), PosOf(s), st.queue, st.walks, st.visited, st.index)
    && Emitted(cat, s, st.queue, st.succ, st.from, st.at)
  }

  /** One candidate `q` reached from `p` that has not been visited: mark
      it, enqueue it one step further than `p`, and emit a successor when
      its tile has a hole (the innermost `if` of `pawn_reachable`). */
  method Visit(cat: Catalog, s: State, p: Pos, dist: nat, walk: seq<Pos>, q: Pos, st0: Search)
    returns (st: Search)
    requires Inv(cat, s, st0)
    requires WalkFromTo(PawnRules, TerrainOf(cat, s), walk, PosOf(s), p) && |walk| == dist + 1
    requires Step(PawnRules, TerrainOf(cat, s), p, q) && q !in st0.visited
    requires Sorted(st0.queue, Distance) && Capped(st0.queue, Distance, dist + 1)
    ensures Inv(cat, s, st)
    ensures st.visited == st0.visited + {q} && st.queue == st0.queue + [(q, dist + 1)]
    ensures Sorted(st.queue, Distance) && Capped(st.queue, Distance, dist + 1)
  {
    LayeredAppend<nat>(st0.queue, Distance, dist + 1, q, dist + 1);
    FrontierVisit(TerrainOf(cat, s), PosOf(s), st0.queue, st0.walks, st0.visited, st0.index, walk, p, dist, q);
    EmittedVisit(cat, s, st0.queue, st0.succ, st0.from, st0.at, q, dist);
    var queue := st0.queue + [(q, dist + 1)];
    var walks := st0.walks + [walk + [q]];
    var index := st0.index[q := |st0.queue|];
    if Lookup(cat, s.board[q.cell]).hole {
      st := Search(queue, st0.visited + {q}, st0.succ + [NewState(s, q, dist)], walks, index,
                   st0.from + [|st0.queue|], st0.at + [|st0.succ|]);
    } else {
      st := Search(queue, st0.visited + {q}, st0.succ, walks, index, st0.from, st0.at + [0]);
    }
  }

  /** The `j`-th candidate of a dequeued position: visit it unless it has
      been visited already. */
  method Consider(cat: Catalog, s: State, p: Pos, dist: nat, walk: seq<Pos>, nexts: seq<Pos>, j: nat, st0: Search)
    returns (st: Search)
    requires Inv(cat, s, st0)
    requires WalkFromTo(PawnRules, TerrainOf(cat, s), walk, PosOf(s), p) && |walk| == dist + 1
    requires j < |nexts| && Step(PawnRules, TerrainOf(cat, s), p, nexts[j])
    requires forall k :: 0 <= k < j ==> nexts[k] in st0.visited
    requires Sorted(st0.queue, Distance) && Capped(st0.queue, Distance, dist + 1)
    ensures Inv(cat, s, st)
    ensures Sorted(st.queue, Distance) && Capped(st.queue, Distance, dist + 1)
    ensures st0.visited <= st.visited && st0.queue <= st.queue
    ensures forall k :: 0 <= k <= j ==> nexts[k] in st.visited
  {
    var q := nexts[j];
    if q !in st0.visited {
      st := Visit(cat, s, p, dist, walk, q, st0);
    } else {
      st := st0;
    }
  }

  /** The body of the `for` loops of `pawn_reachable` for one dequeued
      position `p` at distance `dist`: every move from `p` to an unvisited
      position enqueues it, and emits a successor when its tile has a hole. */
  method ExpandPawnPosition(cat: Catalog, s: State, p: Pos, dist: nat, walk: seq<Pos>, st0: Search)
    returns (st: Search)
    requires Inv(cat, s, st0)
    requires WalkFromTo(PawnRules, TerrainOf(cat, s), walk, PosOf(s), p) && |walk| == dist + 1
    requires Sorted(st0.queue, Distance) && Capped(st0.queue, Distance, dist + 1)
    ensures Inv(cat, s, st)
    ensures Sorted(st.queue, Distance) && Capped(st.queue, Distance, dist + 1)
    ensures st0.visited <= st.visited && st0.queue <= st.queue
    ensures forall q :: Step(PawnRules, TerrainOf(cat, s), p, q) ==> q in st.visited
  {
    st := st0;
    var nexts := Candidates(PawnRules, TerrainOf(cat, s), p);
    var j := 0;
    while j < |nexts|
      invariant 0 <= j <= |nexts|
      invariant Inv(cat, s, st)
      invariant Sorted(st.queue, Distance) && Capped(st.queue, Distance, dist + 1)
      invariant st0.visited <= st.visited && st0.queue <= st.queue
      invariant forall k :: 0 <= k < j ==> nexts[k] in st.visited
    {
      st := Consider(cat, s, p, dist, walk, nexts, j, st);
      j := j + 1;
    }
  }

  /** A finished search: every queue entry has been expanded. Its
      successors are what `pawn_reachable` promises. */
  lemma FinishedSearch(cat: Catalog, s: State, st: Search)
    requires Inv(cat, s, st)
    requires ExpandedUpTo(PawnRules, TerrainOf(cat, s), st.queue, Distance, st.index, |st.queue|)
    ensures PawnResult(cat, s, st.succ)
    ensures forall k :: 0 <= k < |st.succ| ==> NoShorterWalk(cat, s, st.succ[k])
  {
    var t := TerrainOf(cat, s);
    var start := PosOf(s);
    var queue, visited, index := st.queue, st.visited, st.index;
    ExpandedIsClosed(PawnRules, t, queue, Distance, visited, index);
    EmittedArePawnMoves(cat, s, st.queue, st.walks, st.visited, st.index, st.succ, st.from, st.at);
    EmittedAreShortest(cat, s, st.queue, st.visited, st.index, st.succ, st.from, st.at);
    forall q | Reachable(PawnRules, t, start, q) && q != start && Lookup(cat, s.board[q.cell]).hole
      ensures exists k :: 0 <= k < |st.succ| && PosOf(st.succ[k]) == q
    {
      ClosedContainsReachable(PawnRules, t, visited, start, q);
      var i := index[q];
      assert Emits(cat, s, queue, i);
      assert PosOf(st.succ[st.at[i]]) == q;
    }
  }

  /** One iteration of the `while queue` loop: pop the entry at `head` and
      expand it. */
  method ExpandHead(cat: Catalog, s: State, head: nat, st0: Search) returns (st: Search)
    requires Inv(cat, s, st0) && head < |st0.queue|
    requires Sorted(st0.queue, Distance) && Capped(st0.queue, Distance, st0.queue[head].1 + 1)
    requires ExpandedUpTo(PawnRules, TerrainOf(cat, s), st0.queue, Distance, st0.index, head)
    ensures Inv(cat, s, st) && head < |st.queue|
    ensures Sorted(st.queue, Distance)
    ensures head + 1 < |st.queue| ==> Capped(st.queue, Distance, st.queue[head + 1].1 + 1)
    ensures ExpandedUpTo(PawnRules, TerrainOf(cat, s), st.queue, Distance, st.index, head + 1)
  {
    var (p, dist) := st0.queue[head];
    st := ExpandPawnPosition(cat, s, p, dist, st0.walks[head], st0);
    ExpandedUpToNext(PawnRules, TerrainOf(cat, s), Distance, st0.queue, st0.visited, st0.index,
                     st.queue, st.visited, st.index, head);
    if head + 1 < |st.queue| {
      CappedNext<nat>(st.queue, Distance, head);
    }
  }

  /** The search as `pawn_reachable` sets it up: the start position alone
      in the deque and in `visited`, reached by the empty walk. */
  function Initial(s: State): Search
  {
    Search([(PosOf(s), 0)], {PosOf(s)}, [], [[PosOf(s)]], map[PosOf(s) := 0], [], [0])
  }

  /** The initial search satisfies the loop invariant, with nothing expanded. */
  lemma InitialInv(cat: Catalog, s: State)
    ensures Inv(cat, s, Initial(s))
    ensures Sorted(Initial(s).queue, Distance) && Capped(Initial(s).queue, Distance, 1)
    ensures ExpandedUpTo(PawnRules, TerrainOf(cat, s), Initial(s).queue, Distance, Initial(s).index, 0)
  {
  }

  /** The `while queue` loop of `pawn_reachable`. The deque is a sequence
      that only grows and `head` is the next entry `popleft` would take; the
      loop ends with every entry expanded. */
  method RunSearch(cat: Catalog, s: State) returns (st: Search)
    ensures Inv(cat, s, st)
    ensures ExpandedUpTo(PawnRules, TerrainOf(cat, s), st.queue, Distance, st.index, |st.queue|)
  {
    st := Initial(s);
    InitialInv(cat, s);
    var head := 0;
    while head < |st.queue|
      invariant 0 <= head <= |st.queue|
      invariant Inv(cat, s, st)
      invariant Sorted(st.queue, Distance)
      invariant head < |st.queue| ==> Capped(st.queue, Distance, st.queue[head].1 + 1)
      invariant ExpandedUpTo(PawnRules, TerrainOf(cat, s), st.queue, Distance, st.index, head)
      decreases 18 - head
    {
      st := ExpandHead(cat, s, head, st);
      head := head + 1;
    }
  }

  /** `pawn_reachable(TILES, state)`. */
  method PawnReachable(cat: Catalog, s: State) returns (succ: seq<State>)
    ensures PawnResult(cat, s, succ)
    ensures forall k :: 0 <= k < |succ| ==> NoShorterWalk(cat, s, succ[k])
  {
    var st := RunSearch(cat, s);
    FinishedSearch(cat, s, st);
    succ := st.succ;
  }
}

=== FILE: states.dfy ===
/**
 * Search nodes (Code.py:29-56). A state records the board, the pawn's cell
 * and floor and the blank cell, plus the bookkeeping of the search: the cost
 * `g` so far, the ranking key `f`, the predecessor and the move that made it.
 */
module States {
  import opened Wrappers
  import opened Tiles
  import opened Grid

  /** An integer or Python's `float('inf')`, the value `h` returns when the
      board has no hole. */
  datatype Extended = Fin(n: int) | Inf

  /** `g + h` where `h` may be infinite. */
  function Plus(g: int, e: Extended): (r: Extended)
    ensures r.Inf? <==> e.Inf?
    ensures e.Fin? ==> r.n - g == e.n
  {
    match e
    case Fin(n) => Fin(g + n)
    case Inf => Inf
  }

  /** Python's `<` between two such values: infinity is below nothing and
      every integer is below infinity. */
  predicate Below(a: Extended, b: Extended)
  {
    match (a, b)
    case (Fin(x), Fin(y)) => x < y
    case (Fin(_), Inf) => true
    case (Inf, _) => false
  }

  /** Adding the same cost `g` to two estimates keeps the order `__lt__`
      compares them by, and a larger cost ranks a finite estimate later. */
  lemma PlusKeepsOrder(g: int, a: Extended, b: Extended)
    ensures Below(Plus(g, a), Plus(g, b)) <==> Below(a, b)
    ensures forall g' :: g < g' && a.Fin? ==> Below(Plus(g, a), Plus(g', a))
  {
  }

  /** `Below` is a strict weak order: irreflexive, transitive, and any value
      is comparable with one of two comparable values. */
  lemma BelowIsStrictWeakOrder(a: Extended, b: Extended, c: Extended)
    ensures !Below(a, a)
    ensures Below(a, b) && Below(b, c) ==> Below(a, c)
    ensures Below(a, b) ==> Below(a, c) || Below(c, b)
  {
  }

  /** The label the source stores in `action`, kept as data instead of text. */
  datatype Action =
    | Start
    | PawnMove(from: Cell, to: Cell, floor: Floor)
    | SwapTile(tile: TileId, from: Cell, blank: Cell)

  /** The part of a state that `__eq__` and `__hash__` look at. */
  datatype Config = Config(board: Board, pawn: Cell, floor: Floor, blank: Cell)

  datatype State = State(
    board: Board,
    pawn: Cell,
    floor: Floor,
    blank: Cell,
    g: int,
    f: Extended,
    parent: Option<State>,
    action: Action)

  /** The identity of a state for the visited set: `__hash__` hashes exactly
      this tuple. */
  function Key(s: State): Config
  {
    Config(s.board, s.pawn, s.floor, s.blank)
  }

  /** `__eq__` */
  predicate Same(a: State, b: State)
  {
    Key(a) == Key(b)
  }

  /** `__lt__` compares the ranking key only. */
  predicate Less(a: State, b: State)
  {
    Below(a.f, b.f)
  }

  /** Two states are equal for the search exactly when board, pawn cell,
      pawn floor and blank agree, whatever their cost, key, parent and
      action. */
  lemma SameIgnoresBookkeeping(a: State, b: State)
    ensures Same(a, b) <==> (a.board == b.board && a.pawn == b.pawn && a.floor == b.floor && a.blank == b.blank)
    ensures Same(a, a.(g := b.g, f := b.f, parent := b.parent, action := b.action))
  {
  }

  /** Where the pawn stands. */
  datatype Pos = Pos(cell: Cell, floor: Floor)

  function PosOf(s: State): Pos
  {
    Pos(s.pawn, s.floor)
  }
}

=== FILE: tiles.dfy ===
/**
 * Tile catalog of the Temple Trap puzzle (Code.py:5-27).
 *
 * Each tile type says, per floor, through which sides the pawn may leave or
 * enter it, on which sides a staircase joins its ground floor to its top
 * floor, and whether it carries a hole. The symbol/letter indirection of the
 * source (`sign`) is replaced by the nine-variant `TileId`.
 */
module Tiles {

  /** The four sides in the order of the source's `side` list: I = North,
      II = East, III = South, IV = West. */
  datatype Side = I | II | III | IV

  datatype Floor = Ground | Top

  /** Tile letters A..H; `Blank` stands for the empty cell ('-' on the board,
      '#' in the catalog). */
  datatype TileId = A | B | C | D | E | F | G | H | Blank

  datatype Tile = Tile(top: set<Side>, ground: set<Side>, hole: bool, stairs: set<Side>)

  /** Position of a tile identity in a catalog. */
  function Ordinal(t: TileId): (k: int)
    ensures 0 <= k < 9
  {
    match t
    case A => 0
    case B => 1
    case C => 2
    case D => 3
    case E => 4
    case F => 5
    case G => 6
    case H => 7
    case Blank => 8
  }

  /** A catalog gives a description to every tile identity (the source's
      `TILES` dictionary, which has a key for each of the nine identities). */
  type Catalog = c: seq<Tile> | |c| == 9
    witness [Tile({}, {}, false, {}), Tile({}, {}, false, {}), Tile({}, {}, false, {}),
             Tile({}, {}, false, {}), Tile({}, {}, false, {}), Tile({}, {}, false, {}),
             Tile({}, {}, false, {}), Tile({}, {}, false, {}), Tile({}, {}, false, {})]

  function Lookup(c: Catalog, t: TileId): Tile
  {
    c[Ordinal(t)]
  }

  /** The catalog with the entry of `t` replaced; every other entry is kept. */
  function Update(c: Catalog, t: TileId, tile: Tile): (r: Catalog)
    ensures Lookup(r, t) == tile
    ensures forall u :: u != t ==> Lookup(r, u) == Lookup(c, u)
  {
    c[Ordinal(t) := tile]
  }

  /** The unrotated catalog `TILES` of the source, in the order A..H, blank. */
  const BaseTiles: Catalog := [
    Tile({I, II}, {}, false, {}),
    Tile({I, II}, {}, false, {}),
    Tile({II, IV}, {}, false, {}),
    Tile({IV}, {II}, true, {IV}),
    Tile({IV}, {II}, true, {IV}),
    Tile({}, {I, II}, true, {}),
    Tile({}, {I, II}, true, {}),
    Tile({}, {I, II}, true, {}),
    Tile({}, {}, false, {})
  ]

  /** `side_to_number` */
  function SideNumber(s: Side): (n: int)
    ensures 1 <= n <= 4
  {
    match s
    case I => 1
    case II => 2
    case III => 3
    case IV => 4
  }

  /** `number_to_side` */
  function NumberSide(n: int): (s: Side)
    requires 1 <= n <= 4
    ensures SideNumber(s) == n
  {
    if n == 1 then I else if n == 2 then II else if n == 3 then III else IV
  }

  /** The two numbering tables are inverse to each other. */
  lemma SideNumberingRoundTrip(s: Side)
    ensures NumberSide(SideNumber(s)) == s
  {
  }
}

=== FILE: tileswap.dfy ===
/**
 * `tile_swap_blank` (Code.py:135-155): slide a tile next to the blank into
 * the blank cell, for every in-bounds neighbour of the blank except the cell
 * the pawn stands on.
 */
module TileSwap {
  import opened Wrappers
  import opened Grid
  import opened States
  import Heuristic

  /** `b` comes from `a` by sliding the tile on `b.blank`, a neighbour of the
      blank that does not carry the pawn, into `a.blank`: those two cells
      trade contents and no other cell changes; the pawn stays where it is,
      the move costs one and `b` is ranked by `g + h`. */
  predicate SwapMoveOf(a: State, b: State)
  {
    && Adjacent(a.blank, b.blank)
    && b.blank != a.pawn
    && b.board[a.blank] == a.board[b.blank]
    && b.board[b.blank] == a.board[a.blank]
    && (forall c: Cell :: c != a.blank && c != b.blank ==> b.board[c] == a.board[c])
    && b.pawn == a.pawn && b.floor == a.floor
    && b.g == a.g + 1
    && b.f == Plus(b.g, Heuristic.Estimate(b))
    && b.parent == Some(a)
    && b.action == SwapTile(a.board[b.blank], b.blank, a.blank)
  }

  /** The state built in the body of the loop for the neighbour `n`. */
  function SwapWith(s: State, n: Cell): (r: State)
    requires Adjacent(s.blank, n) && n != s.pawn
    ensures SwapMoveOf(s, r) && r.blank == n
  {
    var moved := State(Swap(s.board, s.blank, n), s.pawn, s.floor, n, s.g + 1, Fin(0), Some(s),
                       SwapTile(s.board[n], n, s.blank));
    moved.(f := Plus(moved.g, Heuristic.Estimate(moved)))
  }

  /** `n` is a cell the loop swaps with from direction `d` on: it is the
      neighbour of the blank in direction `d` or a later one, and the pawn
      is not on it. */
  ghost predicate EligibleFrom(blank: Cell, pawn: Cell, n: Cell, d: nat)
  {
    n != pawn && exists e: Dir :: d <= e && Neighbour(blank, e) == Some(n)
  }

  /** The cells the loop swaps the blank with, for directions `d` to 3 in
      order: each eligible cell exactly once. */
  function TargetsFrom(blank: Cell, pawn: Cell, d: nat): (r: seq<Cell>)
    requires d <= 4
    decreases 4 - d
    ensures |r| <= 4 - d
    ensures forall n: Cell :: n in r <==> EligibleFrom(blank, pawn, n, d)
    ensures forall j, k :: 0 <= j < k < |r| ==> r[j] != r[k]
  {
    if d == 4 then []
    else
      var rest := TargetsFrom(blank, pawn, d + 1);
      match Neighbour(blank, d)
      case None => rest
      case Some(n) =>
        if n == pawn then rest
        else
          TargetsStep(blank, pawn, d, d + 1, n, rest);
          [n] + rest
  }

  lemma TargetsStep(blank: Cell, pawn: Cell, d: Dir, next: nat, n: Cell, rest: seq<Cell>)
    requires next == d + 1 && Neighbour(blank, d) == Some(n) && n != pawn
    requires forall m: Cell :: m in rest <==> EligibleFrom(blank, pawn, m, next)
    ensures n !in rest
  {
    if n in rest {
      var e: Dir :| next <= e && Neighbour(blank, e) == Some(n);
      NeighbourInjective(blank, d, e);
    }
  }

  /** The cells the blank may be slid onto are its neighbours other than the
      pawn's cell. */
  lemma EligibleMeansAdjacent(blank: Cell, pawn: Cell)
    ensures forall n: Cell :: EligibleFrom(blank, pawn, n, 0) <==> Adjacent(blank, n) && n != pawn
  {
    forall n: Cell
      ensures EligibleFrom(blank, pawn, n, 0) <==> Adjacent(blank, n) && n != pawn
    {
      if Adjacent(blank, n) {
        AdjacentHasDirection(blank, n);
      }
      if EligibleFrom(blank, pawn, n, 0) {
        var e: Dir :| Neighbour(blank, e) == Some(n);
        NeighbourIsAdjacent(blank, e);
      }
    }
  }

  /** `tile_swap_blank(TILES, state)`: one successor per neighbour of the
      blank other than the pawn's cell, in the order of `movements`. */
  function TileSwapBlank(s: State): (r: seq<State>)
    ensures |r| <= 4
    ensures forall k :: 0 <= k < |r| ==> SwapMoveOf(s, r[k])
    ensures forall n: Cell :: (Adjacent(s.blank, n) && n != s.pawn) <==> (exists k :: 0 <= k < |r| && r[k].blank == n)
    ensures forall j, k :: 0 <= j < k < |r| ==> r[j].blank != r[k].blank
  {
    var targets := TargetsFrom(s.blank, s.pawn, 0);
    EligibleMeansAdjacent(s.blank, s.pawn);
    var r := seq(|targets|, k requires 0 <= k < |targets| => SwapWith(s, targets[k]));
    assert forall k :: 0 <= k < |r| ==> r[k].blank == targets[k];
    r
  }
}

=== FILE: transitions.dfy ===
/**
 * `combind_state` (Code.py:159-165): every successor of a state, first the
 * pawn relocations of `pawn_reachable`, then the tile slides of
 * `tile_swap_blank`; and the moves of the puzzle seen on configurations,
 * which is what the A* search explores.
 */
module Transitions {
  import opened Tiles
  import opened Grid
  import opened States
  import opened Moves
  import opened PawnSearch
  import opened TileSwap

  /** One move of the puzzle from `a` to `b`. */
  ghost predicate Successor(cat: Catalog, a: State, b: State)
  {
    PawnMoveOf(cat, a, b) || SwapMoveOf(a, b)
  }

  /** `combind_state(TILES, state)`: the list of `pawn_reachable` followed by
      the list of `tile_swap_blank`; `split` is where the second begins. */
  method CombindState(cat: Catalog, s: State) returns (succ: seq<State>, ghost split: nat)
    ensures split <= |succ|
    ensures PawnResult(cat, s, succ[..split])
    ensures succ[split..] == TileSwapBlank(s)
    ensures forall k :: 0 <= k < |succ| ==> Successor(cat, s, succ[k])
  {
    var pawn := PawnReachable(cat, s);
    var swaps := TileSwapBlank(s);
    succ := pawn + swaps;
    split := |pawn|;
    assert succ[..split] == pawn && succ[split..] == swaps;
    BothAreSuccessors(cat, s, pawn, swaps);
  }

  lemma BothAreSuccessors(cat: Catalog, s: State, pawn: seq<State>, swaps: seq<State>)
    requires PawnResult(cat, s, pawn) && swaps == TileSwapBlank(s)
    ensures forall k :: 0 <= k < |pawn + swaps| ==> Successor(cat, s, (pawn + swaps)[k])
  {
    forall k | 0 <= k < |pawn + swaps|
      ensures Successor(cat, s, (pawn + swaps)[k])
    {
      if k < |pawn| {
        assert (pawn + swaps)[k] == pawn[k];
      } else {
        assert (pawn + swaps)[k] == swaps[k - |pawn|];
      }
    }
  }

  /** A move on configurations, forgetting costs and history: the pawn walks
      to another position on a hole tile, or a tile next to the blank that
      does not carry the pawn is slid into it. */
  ghost predicate ConfigStep(cat: Catalog, a: Config, b: Config)
  {
    || (&& b.board == a.board && b.blank == a.blank
        && Pos(b.pawn, b.floor) != Pos(a.pawn, a.floor)
        && Lookup(cat, a.board[b.pawn]).hole
        && Reachable(PawnRules, Terrain(cat, a.board, a.blank), Pos(a.pawn, a.floor), Pos(b.pawn, b.floor)))
    || (&& Adjacent(a.blank, b.blank) && b.blank != a.pawn
        && b.board == Swap(a.board, a.blank, b.blank)
        && b.pawn == a.pawn && b.floor == a.floor)
  }

  /** A slide leaves the board `Swap` computes. */
  lemma SwapMoveBoard(a: State, b: State)
    requires SwapMoveOf(a, b)
    ensures b.board == Swap(a.board, a.blank, b.blank)
  {
    var swapped := Swap(a.board, a.blank, b.blank);
    assert forall c: Cell :: b.board[c] == swapped[c];
  }

  /** Every successor is a configuration move. */
  lemma SuccessorIsConfigStep(cat: Catalog, a: State, b: State)
    requires Successor(cat, a, b)
    ensures ConfigStep(cat, Key(a), Key(b))
  {
    if SwapMoveOf(a, b) {
      SwapMoveBoard(a, b);
    }
  }

  /** Conversely `combind_state` produces a successor for every
      configuration move. */
  lemma CombindStateCovers(cat: Catalog, s: State, succ: seq<State>, split: nat, b: Config)
    requires split <= |succ|
    requires PawnResult(cat, s, succ[..split])
    requires succ[split..] == TileSwapBlank(s)
    requires ConfigStep(cat, Key(s), b)
    ensures exists k :: 0 <= k < |succ| && Key(succ[k]) == b
  {
    if b.board == s.board && b.blank == s.blank {
      PawnMoveCovered(cat, s, succ, split, b);
    } else {
      SwapCovered(s, succ, split, b);
    }
  }

  lemma PawnMoveCovered(cat: Catalog, s: State, succ: seq<State>, split: nat, b: Config)
    requires split <= |succ|
    requires PawnResult(cat, s, succ[..split])
    requires ConfigStep(cat, Key(s), b) && b.board == s.board && b.blank == s.blank
    ensures exists k :: 0 <= k < |succ| && Key(succ[k]) == b
  {
    var pawn := succ[..split];
    var k :| 0 <= k < |pawn| && PosOf(pawn[k]) == Pos(b.pawn, b.floor);
    assert PawnMoveOf(cat, s, pawn[k]);
    assert succ[k] == pawn[k];
  }

  lemma SwapCovered(s: State, succ: seq<State>, split: nat, b: Config)
    requires split <= |succ|
    requires succ[split..] == TileSwapBlank(s)
    requires Adjacent(s.blank, b.blank) && b.blank != s.pawn
    requires b.board == Swap(s.board, s.blank, b.blank) && b.pawn == s.pawn && b.floor == s.floor
    ensures exists k :: 0 <= k < |succ| && Key(succ[k]) == b
  {
    var swaps := succ[split..];
    var k :| 0 <= k < |swaps| && swaps[k].blank == b.blank;
    SwapMoveBoard(s, swaps[k]);
    assert succ[split + k] == swaps[k];
  }

  /** A configuration that can occur in play: the blank cell holds the only
      blank and the pawn is not on it. */
  predicate WellFormed(c: Config)
  {
    && c.board[c.blank] == Blank
    && multiset(c.board)[Blank] == 1
    && c.pawn != c.blank
  }

  /** Moves keep configurations well formed. */
  lemma ConfigStepPreservesWellFormed(cat: Catalog, a: Config, b: Config)
    requires WellFormed(a) && ConfigStep(cat, a, b)
    ensures WellFormed(b)
  {
    if b.board == a.board && b.blank == a.blank {
      if Pos(b.pawn, b.floor) != Pos(a.pawn, a.floor) && Reachable(PawnRules, Terrain(cat, a.board, a.blank), Pos(a.pawn, a.floor), Pos(b.pawn, b.floor)) {
        var w :| WalkFromTo(PawnRules, Terrain(cat, a.board, a.blank), w, Pos(a.pawn, a.floor), Pos(b.pawn, b.floor));
        var k := |w| - 2;
        assert Step(PawnRules, Terrain(cat, a.board, a.blank), w[k], w[k + 1]);
        StepIsAdjacent(PawnRules, Terrain(cat, a.board, a.blank), w[k], w[k + 1]);
      }
    }
  }
}

=== FILE: wrappers.dfy ===
/** The Option type used wherever the source returns None or a value. */
module Wrappers {

  datatype Option<+T> = None | Some(value: T)
}
